=== FILE: README.md ===
# Rails route set: URL-generation bookkeeping, in Dafny

This project models the part of Rails' `ActionDispatch::Routing::RouteSet`
that prepares URL generation, and proves properties of that model. It
covers five pieces:

- **the named-route registry** (`NamedRouteCollection`): adding, reading
  and clearing named routes, and the `<name>_path` / `<name>_url` helper
  names it tracks;
- **the route-name checks of `add_route`**: a non-blank name must look
  like an identifier, and a name already in use is refused;
- **named route helpers** (`UrlHelper` and `OptimizedUrlHelper`):
  - binding positional arguments to segment keys (`handle_positional_args`);
  - the fast path that parameterizes the required parts directly, and
    reports missing keys in a `UrlGenerationError`;
- **the `Generator` constructor**: the six rewriting steps applied to the
  `options` and `recall` hashes before the path formatter runs;
  - recalled action defaults to `index`;
  - explicit controller implies explicit action;
  - controller/action/id inheritance from the recall;
  - relative controller resolution;
  - removal of one leading slash;
  - moving an `index` action into the recall;
- **`url_for` and the route set's life cycle**:
  - `url_for` splits its options between the URL strategy and the path
    generator (credentials, script names, reserved options);
  - `Dispatcher#prepare_params!`;
  - `draw`, `append`, `prepend`, `finalize!` and `clear!`.

Ruby values are modelled by `RubyValues.Value`:

- nil;
- a String;
- a Symbol;
- any other object, with its own `to_s` and `to_param`.

Hash keys are Symbol names. Only nil is falsy. A missing key reads as nil.
Operations that can raise return a `Result`, and the `Err` side names the
Ruby exception.

Files:

| file | module | models |
|---|---|---|
| values.dfy | `RubyValues` | values, truthiness, `to_s`/`to_param`, errors |
| seqs.dfy | `Seqs` | Array difference, `uniq`, subsequences |
| strings.dfy | `Strings` | `split('/')`, `join('/')`, `count`, Symbol sort |
| named_routes.dfy | `NamedRoutes` | `NamedRouteCollection` |
| route_names.dfy | `RouteNames` | the name checks of `add_route` |
| url_helpers.dfy | `UrlHelpers` | `UrlHelper`, `OptimizedUrlHelper` |
| generator.dfy | `Generator` | `Generator#initialize` and its steps |
| url_for.dfy | `UrlFor` | `url_for`, `find_script_name`, `generate` |
| dispatcher.dfy | `Dispatcher` | `Dispatcher#prepare_params!` |
| route_set.dfy | `RouteSetLifecycle` | `draw`, `append`, `prepend`, `finalize!`, `clear!` |

## Model

| member | source | states |
|---|---|---|
| NamedRoutes.Add | actionpack/lib/action_dispatch/routing/route_set.rb:124-139 | after `add(name, route)` the name reads back the route and both helpers are defined; every other name reads as before; defined helpers stay defined; re-adding keeps `length` and `names`, a new name appends to `names` and adds one to `length` |
| NamedRoutes.AddValid | actionpack/lib/action_dispatch/routing/route_set.rb:124-139 | `add` keeps the registry consistent: names listed once, in first-insertion order, each with exactly its `_path` and `_url` helper |
| NamedRoutes.RouteDefinedIff | actionpack/lib/action_dispatch/routing/route_set.rb:101-104 | `route_defined?(helper)` holds exactly when the helper is the `_path` or `_url` helper of a registered name |
| NamedRoutes.LengthIsNamesCount | actionpack/lib/action_dispatch/routing/route_set.rb:158-164 | `length` equals the number of `names` |
| NamedRoutes.Clear | actionpack/lib/action_dispatch/routing/route_set.rb:110-122 | after `clear!` no name is registered, no helper is defined, `length` is 0 and `names` and `helper_names` are empty |
| NamedRoutes.Empty | actionpack/lib/action_dispatch/routing/route_set.rb:93-99 | a new collection is consistent and empty |
| NamedRoutes.Get | actionpack/lib/action_dispatch/routing/route_set.rb:141-143 | `get` answers a route exactly for a registered name |
| NamedRoutes.HasKey | actionpack/lib/action_dispatch/routing/route_set.rb:145-147 | `key?`: the name is registered |
| NamedRoutes.RouteDefined | actionpack/lib/action_dispatch/routing/route_set.rb:101-104 | `route_defined?`: the name is a defined path or url helper (characterised by `NamedRoutes.RouteDefinedIff`) |
| NamedRoutes.HelperNames | actionpack/lib/action_dispatch/routing/route_set.rb:106-108 | `helper_names`: the path helpers, then the url helpers |
| NamedRoutes.Names | actionpack/lib/action_dispatch/routing/route_set.rb:158-160 | in a consistent registry `names` lists exactly the registered names, each once |
| NamedRoutes.Length | actionpack/lib/action_dispatch/routing/route_set.rb:162-164 | `length` is 0 exactly when no name is registered |
| RouteNames.AddRoute | actionpack/lib/action_dispatch/routing/route_set.rb:517-526 | with the whole-name check that line 518 evidently means: a non-blank name that is not an identifier is refused as invalid; a nil name registers nothing; a name already in use is refused; otherwise the route is registered under the name and `length` grows by one; other names are never changed |
| RouteNames.RegisterName | actionpack/lib/action_dispatch/routing/route_set.rb:520-535 | after the pattern check: nil registers nothing, an object that is not a String or Symbol raises on `to_sym`, a name in use is refused, any other name is added |
| RouteNames.AddRouteAsWritten | actionpack/lib/action_dispatch/routing/route_set.rb:517-526 | as written: a non-blank name none of whose lines is an identifier is refused as invalid, and every other name goes on to registration |
| RouteNames.AddRouteAsWrittenRegistersMultiLineName | actionpack/lib/action_dispatch/routing/route_set.rb:518 | as written, `add_route` registers the name "1x\nposts" in an empty registry, while the whole-name check refuses it |
| RouteNames.NameAcceptedAsWritten | actionpack/lib/action_dispatch/routing/route_set.rb:518 | the pattern as written: a name passes when one of its lines is identifier-like (compared with the whole-name check by `RouteNames.AsWrittenAgreesOnSingleLines`) |
| RouteNames.Blank | actionpack/lib/action_dispatch/routing/route_set.rb:518 | `blank?`: nil, a String of white space only, or an empty Symbol |
| RouteNames.SymbolName | actionpack/lib/action_dispatch/routing/route_set.rb:535 | only Strings and Symbols turn into a route name, and the name is their text |
| RouteNames.BlankStringNameIsRegistered | actionpack/lib/action_dispatch/routing/route_set.rb:518-535 | a blank String name passes the name check and is registered like any other |
| RouteNames.ValidNameGivesIdentifierHelpers | actionpack/lib/action_dispatch/routing/route_set.rb:518 | an accepted name holds no line break, and its helper names are identifiers too |
| RouteNames.AsWrittenAgreesOnSingleLines | actionpack/lib/action_dispatch/routing/route_set.rb:518 | the line-anchored pattern accepts every whole identifier, and on single-line names it accepts exactly the identifiers |
| RouteNames.AsWrittenAcceptsMultiLineName | actionpack/lib/action_dispatch/routing/route_set.rb:518 | the pattern as written accepts "1x\nposts", which is not an identifier |
| UrlHelpers.RemainingKeys | actionpack/lib/action_dispatch/routing/route_set.rb:259-273 | a segment key is left for positional args exactly when the trailing options do not give it and, with fewer args than non-format keys, neither the controller options nor the result hash do; order is kept and no key appears twice |
| UrlHelpers.BindPositional | actionpack/lib/action_dispatch/routing/route_set.rb:275-278 | the keys of the result are the old keys plus as many remaining keys as there are args, so args past the last key are dropped; keys not bound keep their value |
| UrlHelpers.BindPositionalBinds | actionpack/lib/action_dispatch/routing/route_set.rb:275-278 | when no key repeats, the i-th arg is stored under the i-th key |
| UrlHelpers.PositionalArgs | actionpack/lib/action_dispatch/routing/route_set.rb:258-282 | `handle_positional_args` as a function: the trailing options override everything, the old keys stay, and nothing but segment keys is added |
| UrlHelpers.PositionalArgsBinding | actionpack/lib/action_dispatch/routing/route_set.rb:258-282 | with args, they bind in order to the remaining keys and unbound keys keep their value; without args the result is unchanged; in both cases the trailing options hash overrides everything |
| UrlHelpers.HandlePositionalArgs | actionpack/lib/action_dispatch/routing/route_set.rb:258-282 | the step-by-step method: the trailing options override everything; without args the result is the old hash merged with them; with args the result holds exactly the old keys, the trailing options and the keys the args bind to, the i-th arg is stored under the i-th remaining key when no segment key repeats, and unbound keys keep their value |
| UrlHelpers.StoreArgs | actionpack/lib/action_dispatch/routing/route_set.rb:275-278 | the loop adds exactly as many keys as there are args, dropping args past the last key; when no key repeats, the arg at each index is stored under the key at that index; keys not bound keep their value |
| UrlHelpers.TrimPathParams | actionpack/lib/action_dispatch/routing/route_set.rb:259-273 | after the in-place differences, a segment key is left exactly when the trailing options lack it and, with fewer args than non-format keys, so do the controller options and the result hash; the order is kept and no key repeats when none did |
| UrlHelpers.ParameterizeArgs | actionpack/lib/action_dispatch/routing/route_set.rb:214-223 | exactly the required parts get a value; the parts reported missing are exactly those whose positional arg's `to_param` is nil or empty |
| UrlHelpers.ParameterizeArgsAt | actionpack/lib/action_dispatch/routing/route_set.rb:214-223 | when no part repeats, each required part holds the `to_param` of the arg at its position |
| UrlHelpers.ParamsNotMissing | actionpack/lib/action_dispatch/routing/route_set.rb:214-223 | when nothing is reported, every parameter is non-empty |
| UrlHelpers.Constraints | actionpack/lib/action_dispatch/routing/route_set.rb:230 | the error's constraints are the route's requirements overridden by the params |
| UrlHelpers.OptimizedHelper | actionpack/lib/action_dispatch/routing/route_set.rb:202-235 | the fast path succeeds exactly when no arg parameterizes to nil or empty, and then gives every required part its arg's param; otherwise it raises a UrlGenerationError whose missing keys are sorted, non-empty, and exactly the parts that lack a value |
| UrlHelpers.OptimizeHelper | actionpack/lib/action_dispatch/routing/route_set.rb:175-177 | `optimize_helper?`: the route has no glob and no path requirements |
| UrlHelpers.CallHelper | actionpack/lib/action_dispatch/routing/route_set.rb:167-256 | the fast path is taken exactly when the route has no glob and no path requirements, the arg count equals the number of required parts, no trailing options hash is given and optimized generation is on; on the general path the hash is `handle_positional_args` over the url options, the trailing options, the args, the url options merged with the defaults and the route's `segment_keys.uniq`, so the trailing options win and every url option is present |
| UrlHelpers.FewerArgsSkipSuppliedKeys | actionpack/lib/action_dispatch/routing/route_set.rb:258-282 | on the general path with too few args, an arg skips a segment key the url options already supply and binds to the next one |
| UrlHelpers.OnlyOpenKeyRemains | actionpack/lib/action_dispatch/routing/route_set.rb:259-273 | with one arg and two segment keys, the first supplied by the controller options, only the second is left to bind |
| Generator.SegmentKeysOf | actionpack/lib/action_dispatch/routing/route_set.rb:706-712 | segment keys are consulted exactly when a route name is given and registered, and they are that route's `segment_keys` |
| Generator.NormalizeRecall | actionpack/lib/action_dispatch/routing/route_set.rb:629-632 | the recall always ends with a set action: the recalled one if set, else 'index'; nothing else changes |
| Generator.NormalizeOptions | actionpack/lib/action_dispatch/routing/route_set.rb:634-652 | a set controller becomes its String and forces an action; a present action becomes its String, nil becoming 'index' |
| Generator.UseRecallFor | actionpack/lib/action_dispatch/routing/route_set.rb:621-627 | a key is taken from the recall exactly when it is set there, the options lack it or hold the same value, and a named route, if any, has that segment |
| Generator.NormalizeControllerActionId | actionpack/lib/action_dispatch/routing/route_set.rb:654-663 | controller, action and id are inherited in that order, each only when it and every key before it can be inherited; other keys are untouched |
| Generator.StartsWithSlash | actionpack/lib/action_dispatch/routing/route_set.rb:667-685 | only a String answers `start_with?`, and it answers whether the first character is '/' |
| Generator.UseRelativeController | actionpack/lib/action_dispatch/routing/route_set.rb:665-674 | without a route name and with a different current controller, a controller not starting with '/' is resolved relative to the current one; a nil controller raises NoMethodError; with a route name or the same controller nothing changes |
| Generator.DifferentController | actionpack/lib/action_dispatch/routing/route_set.rb:700-703 | `different_controller?`: a current controller is set and its `to_param` differs from the requested one's |
| Generator.RelativeTo | actionpack/lib/action_dispatch/routing/route_set.rb:669-672 | the relative resolution itself; `Generator.RelativeControllerReplacesTail` states what it computes |
| Generator.RelativeControllerReplacesTail | actionpack/lib/action_dispatch/routing/route_set.rb:669-672 | the requested controller replaces the last (slashes + 1) segments of the current controller |
| Generator.RelativeControllerStep | actionpack/lib/action_dispatch/routing/route_set.rb:667-673 | without a route name, a String controller other than the current one and not starting with '/' is replaced by its resolution against the current one |
| Generator.RelativeControllerResolution | actionpack/lib/action_dispatch/routing/route_set.rb:665-674 | a relative controller resolves to the current namespace followed by the requested controller |
| Generator.RelativeControllerExample | actionpack/lib/action_dispatch/routing/route_set.rb:665-666 | "foo/bar/baz" and "baz/bat" give "foo/baz/bat" |
| Generator.NormalizeController | actionpack/lib/action_dispatch/routing/route_set.rb:676-685 | exactly one leading '/' is removed from a set controller; a set non-String controller raises NoMethodError |
| Generator.NormalizeAction | actionpack/lib/action_dispatch/routing/route_set.rb:687-692 | an 'index' action leaves the options for the recall; afterwards the options never hold 'index' |
| Generator.Normalize | actionpack/lib/action_dispatch/routing/route_set.rb:599-611 | after the constructor the recall always names an action, the options never hold the 'index' action, a set controller is a String, only controller, action and id of the options and the action of the recall may have changed, and errors are NoMethodErrors |
| Generator.NormalizeFrame | actionpack/lib/action_dispatch/routing/route_set.rb:605-610 | steps that each change only some of controller, action and id together change only those keys |
| Generator.ExplicitControllerImpliesIndex | actionpack/lib/action_dispatch/routing/route_set.rb:634-652 | an explicit controller without an action ends with 'index' in the recall and no action in the options, whatever action was recalled |
| Generator.ExplicitControllerExample | actionpack/lib/action_dispatch/routing/route_set.rb:636-642 | the example in the source's comment normalises as the comment describes |
| Generator.AbsoluteControllerLosesOneSlash | actionpack/lib/action_dispatch/routing/route_set.rb:667-685 | a controller "/x" is not made relative and becomes "x" |
| Generator.ImplicitControllerInheritsRecall | actionpack/lib/action_dispatch/routing/route_set.rb:654-663 | with no route name and no controller, action or id given, all three are taken from the recall |
| Generator.NamedRouteStopsInheritance | actionpack/lib/action_dispatch/routing/route_set.rb:621-663 | a named route without a controller segment stops inheritance of controller, action and id |
| UrlFor.Merge | actionpack/lib/action_dispatch/routing/route_set.rb:750 | given options win over the default url options, and defaults fill in the rest |
| UrlFor.FindScriptName | actionpack/lib/action_dispatch/routing/route_set.rb:740-742 | `:script_name` is removed; the script name is the option if set, else the relative URL root, else "" |
| UrlFor.Concat | actionpack/lib/action_dispatch/routing/route_set.rb:764-766 | the original script name is prepended only when both are Strings; otherwise it raises |
| UrlFor.TakeCredentials | actionpack/lib/action_dispatch/routing/route_set.rb:752-757 | user and password leave the options together, only when both are set; otherwise both are nil and the options are untouched |
| UrlFor.ResolveScriptName | actionpack/lib/action_dispatch/routing/route_set.rb:761-766 | both script-name options are removed; the script name is the found one, prefixed by a set original script name |
| UrlFor.PathOptions | actionpack/lib/action_dispatch/routing/route_set.rb:768-769 | no reserved option is kept, every other option is |
| UrlFor.PlanUrl | actionpack/lib/action_dispatch/routing/route_set.rb:750-769 | the path options hold no reserved option, both script-name options are gone from the options, and the only errors are the script-name concatenation's |
| UrlFor.PlanUrlScriptName | actionpack/lib/action_dispatch/routing/route_set.rb:761-766 | the script name handed on is the one found, after a set original script name; planning fails exactly when a set original script name and the found one are not both Strings |
| UrlFor.PlanUrlSplitsOptions | actionpack/lib/action_dispatch/routing/route_set.rb:768-769 | every unreserved option other than the credentials reaches the path generator unchanged |
| UrlFor.PlanUrlTakesCredentials | actionpack/lib/action_dispatch/routing/route_set.rb:754-757 | when user and password are both set, both are handed on and neither reaches the path generator |
| UrlFor.PlanUrlKeepsLoneCredential | actionpack/lib/action_dispatch/routing/route_set.rb:752-769 | when they are not both set, no credentials are handed on and both options reach the path generator as they were |
| UrlFor.PlanUrlRecall | actionpack/lib/action_dispatch/routing/route_set.rb:759 | the recall is the given one, else the default one, else empty |
| UrlFor.Generate | actionpack/lib/action_dispatch/routing/route_set.rb:727-729 | when the constructor's normalisation raises, `generate` raises a NoMethodError; otherwise it returns the formatter's answer for hashes in which the recall names an action, the options hold no 'index' action, a set controller is a String, and nothing but the controller, action and id of the options and the action of the recall has changed |
| UrlFor.HandOverEntries | actionpack/lib/action_dispatch/routing/route_set.rb:777-781 | the path, script name, user and password are set, `:params` is held apart, and every other option is kept and nothing else added |
| UrlFor.MergeParams | actionpack/lib/action_dispatch/routing/route_set.rb:773-775 | explicit params win over the formatter's unused params, which fill in the rest, and nothing else is added |
| UrlFor.UrlFor | actionpack/lib/action_dispatch/routing/route_set.rb:749-784 | errors of planning and generation propagate; on success the strategy gets a String path, a script name, a user and a password |
| UrlFor.UrlForHandsOver | actionpack/lib/action_dispatch/routing/route_set.rb:771-783 | on success the strategy gets the generated path, the planned script name and credentials, every other remaining option unchanged, and the formatter's unused params overridden by an explicit `:params` |
| UrlFor.ReservedOptionsNeverReachFormatter | actionpack/lib/action_dispatch/routing/route_set.rb:768-771 | no reserved option reaches the path formatter |
| UrlFor.LoneUserIsAPathParameter | actionpack/lib/action_dispatch/routing/route_set.rb:752-769 | a user without a password stays among the path options and no credentials are handed on |
| UrlFor.OriginalScriptNamePrefixes | actionpack/lib/action_dispatch/routing/route_set.rb:761-766 | an original script name is prepended to the given script name |
| Dispatcher.PrepareParams | actionpack/lib/action_dispatch/routing/route_set.rb:77-83 | a String controller is underscored and any other present controller raises NoMethodError; the action is kept if set, else 'index'; nothing else changes |
| Dispatcher.PrepareParamsIdempotent | actionpack/lib/action_dispatch/routing/route_set.rb:77-83 | preparing prepared params changes nothing when underscoring is idempotent on the controller |
| RouteSetLifecycle.New | actionpack/lib/action_dispatch/routing/route_set.rb:351-354 | a new route set is not finalized, has clear-and-finalize enabled, nothing queued and an empty registry |
| RouteSetLifecycle.SetDisableClearAndFinalize | actionpack/lib/action_dispatch/routing/route_set.rb:316 | the `disable_clear_and_finalize` writer sets the flag and changes nothing else |
| RouteSetLifecycle.Append | actionpack/lib/action_dispatch/routing/route_set.rb:382-384 | `append` queues the block last and changes nothing else |
| RouteSetLifecycle.Prepend | actionpack/lib/action_dispatch/routing/route_set.rb:386-388 | `prepend` queues the block last and changes nothing else |
| RouteSetLifecycle.Finalize | actionpack/lib/action_dispatch/routing/route_set.rb:404-408 | `finalize!` always leaves the set finalized and keeps the queues and the disable flag; on a finalized set it does nothing, else the named routes become what the appended blocks, run in order, register on top of the current ones |
| RouteSetLifecycle.FinalizeIdempotent | actionpack/lib/action_dispatch/routing/route_set.rb:404-408 | finalizing twice is finalizing once |
| RouteSetLifecycle.Clear | actionpack/lib/action_dispatch/routing/route_set.rb:410-416 | `clear!` leaves the set not finalized, empties the named routes so that afterwards they are exactly what the prepended blocks register from nothing, and evaluates the prepended blocks in order |
| RouteSetLifecycle.Draw | actionpack/lib/action_dispatch/routing/route_set.rb:375-380 | `draw` evaluates the prepended blocks, the block and the appended blocks in order and finalizes, unless clear-and-finalize is disabled, in which case it only evaluates the block; the queues and the flag are never changed |
| RouteSetLifecycle.DrawRebuildsRegistry | actionpack/lib/action_dispatch/routing/route_set.rb:375-416 | after `draw` the named routes are exactly what the prepended blocks, the block and the appended blocks register, starting from nothing |
| RouteSetLifecycle.RedrawIsStable | actionpack/lib/action_dispatch/routing/route_set.rb:375-416 | drawing the same block again leaves the named routes as drawing once |
| RouteSetLifecycle.RunAllReplays | actionpack/lib/action_dispatch/routing/route_set.rb:404-416 | evaluating queued blocks one by one registers what running them in order registers |
| Seqs.Without | actionpack/lib/action_dispatch/routing/route_set.rb:268-273 | Array difference keeps exactly the elements not dropped, in order, without duplicating any |
| Seqs.WithoutCounts | actionpack/lib/action_dispatch/routing/route_set.rb:268-273 | every element not dropped is kept as often as it occurs, and no occurrence of a dropped one |
| Seqs.Uniq | actionpack/lib/action_dispatch/routing/route_set.rb:240 | `uniq` keeps exactly the elements of the list, once each, as a subsequence that starts with the first element |
| Seqs.UniqKeepsFirstOccurrences | actionpack/lib/action_dispatch/routing/route_set.rb:240 | `uniq` is the left-to-right scan that keeps an element exactly when it has not been seen before, so each element sits at its first occurrence |
| Strings.SplitJoin | actionpack/lib/action_dispatch/routing/route_set.rb:669-672 | splitting on '/' undoes joining with '/', for parts without '/' and a non-empty last part |
| Strings.Sort | actionpack/lib/action_dispatch/routing/route_set.rb:232 | `sort` gives an ordered permutation of the missing keys |

## Left out

- Journey (route matching, path formatting, `Route#format`, `build_path`, `build_conditions`) is not part of this model. The formatter is a function parameter of `UrlFor.UrlFor`. A route is reduced to its segment keys, required parts, requirements and glob flag.
- The metaprogramming is left out: `define_url_helper`, the helper modules, `undef_method`, `url_helpers`, `mounted_helpers`, `define_mounted_helper`. Only the helper names are tracked.
- Request dispatching (`Dispatcher#serve`, `controller_reference`, constant lookup), recognition (`recognize_path`) and `call` are left out: they depend on the application's constants and on Rack.
- Evaluating a routes block runs the routing DSL. Its effect on the registry is the `run` parameter of the life-cycle functions. `run` is a function of the registry and the block, so a block is taken to register the same routes every time it runs; `RouteSetLifecycle.RedrawIsStable` rests on that. A block whose routes depend on outside state is not modelled. `set.clear` and `formatter.clear` inside `clear!` belong to Journey. The Rails 3.0 DSL error raised for a block of arity 1 is not modelled.
- The URL strategy called at the end of `url_for` and of the fast path (`PATH`, `UNKNOWN`, host handling) is left out. The model returns the hash the strategy receives.
- `UrlHelpers.HandlePositionalArgs` is modelled as a pure function of its inputs. When there are at least as many args as non-format segment keys, the source deletes keys from the caller's `path_params` array in place (lines 271-273), which shrinks the helper's cached segment keys for later calls. With fewer args, the `-=` at lines 268-269 first rebinds `path_params` to a copy, so nothing is shared. That aliasing is not modelled.
- `Generator.Normalize`: the source rewrites the caller's recall hash in place. The model returns the new hashes and does not track the aliasing.
- Ruby `false` is not modelled: only nil is falsy. So `a || b` on a `false` option is not covered.
- Symbols: `start_with?`, `split`, `underscore` and `+` behave as in the Ruby of this code's era, where Symbol lacks them. Calling them on a Symbol or another object is a NoMethodError. An arbitrary object's own methods of those names are not modelled.
- `to_s` and `to_param` of arbitrary objects are data (`Obj.text`, `Obj.param`), not computed.
- The `/i` flag of the name pattern folds only ASCII letters here. Ruby's non-ASCII case folding is not modelled.
- `UrlFor.UrlOptions`: `:_recall` and `:params` are held in their own fields as hashes, and by convention `entries` holds neither key. Nothing in the type enforces this. An options hash that carries either key among its entries is outside the model. So is a nil or scalar value under those keys, which would raise in `merge!` or `normalize_recall!`.
- The entry order of Ruby hashes is not modelled for option hashes. They are maps. The error message text of UrlGenerationError and ArgumentError is not modelled; the error carries its data.
- Route requirements are Strings, not Regexps, since only their presence and values reach the error's constraints.
- `RouteSet#extra_keys`, `generate_extras`, `optimize_routes_generation?`, `add_route`'s path and conditions building, and everything else of `RouteSet` outside the pieces listed above are not part of this model. `optimize_routes_generation?` is the `optimizeGeneration` parameter of `UrlHelpers.CallHelper`.
- `RouteNames.AddRoute`: applies the whole-name check that the pattern at line 518 evidently means, not the line-anchored one the code runs. `RouteNames.AddRouteAsWritten` models the code as written, and the Findings table records the difference.
- `UrlFor.PlanUrl`: its own contract states only the reserved-key and error properties. The full split is stated by the `UrlFor.PlanUrl*` lemmas.
- `UrlFor.UrlFor`: its own contract states the error propagation and the shape of the result. The contents are stated by `UrlFor.UrlForHandsOver`.

## Findings

| source | as written | input that shows it | evidently intended | confidence | as-written member | corrected member |
|---|---|---|---|---|---|---|
| actionpack/lib/action_dispatch/routing/route_set.rb:518 | `name.to_s.match(/^[_a-z]\w*$/i)` uses `^` and `$`, which anchor at line boundaries in Ruby, so a name passes when any one of its lines is an identifier | the route name "1x\nposts": its second line is an identifier, so the name is accepted, and helpers named "1x\nposts_path" and "1x\nposts_url" would be defined | the whole name must be an identifier (`\A[_a-z]\w*\z`) | not executed | RouteNames.AddRouteAsWritten | RouteNames.AddRoute |

=== FILE: dispatcher.dfy ===
/**
 `RouteSet::Dispatcher#prepare_params!`: the path parameters of a
 recognised request get an underscored controller and a default action.
 How `underscore` rewrites a String belongs to ActiveSupport; it is a
 parameter here.
 */
module Dispatcher {
  import opened RubyValues

  /** `prepare_params!(params)`: normalize_controller!, then merge_default_action!. */
  function PrepareParams(params: map<Key, Value>, underscore: string -> string): (r: Result<map<Key, Value>>)
    ensures r.Ok? <==> Controller !in params || params[Controller].Str?
    ensures r.Err? ==> r.error == NoMethodError("underscore")
    ensures r.Ok? ==> Action in r.value && Truthy(r.value[Action])
    ensures r.Ok? && Truthy(Lookup(params, Action)) ==> r.value[Action] == params[Action]
    ensures r.Ok? && !Truthy(Lookup(params, Action)) ==> r.value[Action] == Str("index")
    ensures r.Ok? ==> (Controller in r.value <==> Controller in params)
    ensures r.Ok? && Controller in params ==> r.value[Controller] == Str(underscore(params[Controller].s))
    ensures r.Ok? ==> r.value - {Controller, Action} == params - {Controller, Action}
  {
    var normalized :-
      if Controller in params then
        match params[Controller]
        case Str(s) => Ok(params[Controller := Str(underscore(s))])
        case _ => Err(NoMethodError("underscore"))
      else Ok(params);
    if Truthy(Lookup(normalized, Action)) then Ok(normalized)
    else Ok(normalized[Action := Str("index")])
  }

  /**
   Preparing prepared params changes nothing, as long as underscoring the
   controller a second time leaves it as it is.
   */
  lemma PrepareParamsIdempotent(params: map<Key, Value>, underscore: string -> string)
    requires Controller in params && params[Controller].Str? ==>
      underscore(underscore(params[Controller].s)) == underscore(params[Controller].s)
    ensures var r := PrepareParams(params, underscore);
      r.Ok? ==> PrepareParams(r.value, underscore) == r
  {
    var r := PrepareParams(params, underscore);
    if r.Ok? {
      var again := PrepareParams(r.value, underscore);
      assert again.Ok?;
      assert again.value - {Controller, Action} == r.value - {Controller, Action};
      assert again.value == r.value;
    }
  }
}

=== FILE: generator.dfy ===
/**
 `RouteSet::Generator`: the rewriting of the `options` and `recall` hashes
 that its constructor performs before the path formatter runs. The steps
 run in the constructor's order: normalize_recall!, normalize_options!,
 normalize_controller_action_id!, use_relative_controller!,
 normalize_controller! and normalize_action!.
 */
module Generator {
  import opened RubyValues
  import opened Strings
  import opened NamedRoutes

  const Index: Value := Str("index")

  /** The two hashes after normalisation, as handed to the formatter. */
  datatype Normalized = Normalized(options: map<Key, Value>, recall: map<Key, Value>)

  /** `k` reads the same in both hashes, present or absent. */
  ghost predicate SameAt(a: map<Key, Value>, b: map<Key, Value>, k: Key) {
    (k in a <==> k in b) && Lookup(a, k) == Lookup(b, k)
  }

  /** The segment keys of the named route, when the route name is given and registered. */
  function SegmentKeysOf(named: NamedRouteCollection, namedRoute: Option<Key>): (r: Option<seq<Key>>)
    ensures r.Some? <==> namedRoute.Some? && HasKey(named, namedRoute.value)
    ensures r.Some? ==> r.value == named.routes[namedRoute.value].segmentKeys
  {
    if namedRoute.Some? && namedRoute.value in named.routes
    then Some(named.routes[namedRoute.value].segmentKeys)
    else None
  }

  /** `normalize_recall!`: the recalled action defaults to 'index'. */
  function NormalizeRecall(recall: map<Key, Value>): (r: map<Key, Value>)
    ensures Action in r && Truthy(r[Action])
    ensures Truthy(Lookup(recall, Action)) ==> r[Action] == recall[Action]
    ensures !Truthy(Lookup(recall, Action)) ==> r[Action] == Index
    ensures r - {Action} == recall - {Action}
  {
    if Truthy(Lookup(recall, Action)) then recall else recall[Action := Index]
  }

  /**
   `normalize_options!`: an explicit controller makes the action explicit
   (defaulting to 'index', not to the recalled action) and is turned into
   a String; a present action is turned into a String, nil becoming 'index'.
   */
  function NormalizeOptions(options: map<Key, Value>): (r: map<Key, Value>)
    ensures r - {Controller, Action} == options - {Controller, Action}
    ensures Truthy(Lookup(options, Controller)) ==> Lookup(r, Controller) == Str(ToS(options[Controller]))
    ensures !Truthy(Lookup(options, Controller)) ==> SameAt(r, options, Controller)
    ensures Action in r <==> Action in options || Truthy(Lookup(options, Controller))
    ensures Action in r ==>
      r[Action] == (if Truthy(Lookup(options, Action)) then Str(ToS(options[Action])) else Index)
  {
    var o := if Truthy(Lookup(options, Controller)) then
        var withAction := if Truthy(Lookup(options, Action)) then options else options[Action := Index];
        withAction[Controller := Str(ToS(options[Controller]))]
      else options;
    if Action in o then
      o[Action := Str(ToS(if Truthy(o[Action]) then o[Action] else Index))]
    else o
  }

  /** What `use_recall_for` did: whether the key was taken, and the options after it. */
  datatype Step = Step(taken: bool, options: map<Key, Value>)

  /**
   The recalled value of `k` may be carried over: it is set, the options
   lack `k` or already hold that very value, and when a named route exists
   `k` is one of its segment keys.
   */
  ghost predicate Inheritable(k: Key, options: map<Key, Value>, recall: map<Key, Value>, segmentKeys: Option<seq<Key>>) {
    && Truthy(Lookup(recall, k))
    && (k !in options || options[k] == recall[k])
    && (segmentKeys.None? || k in segmentKeys.value)
  }

  /** `use_recall_for(key)`; its truthy result is `taken`. */
  function UseRecallFor(k: Key, options: map<Key, Value>, recall: map<Key, Value>, segmentKeys: Option<seq<Key>>): (r: Step)
    ensures r.taken <==> Inheritable(k, options, recall, segmentKeys)
    ensures r.taken ==> r.options == options[k := recall[k]]
    ensures !r.taken ==> r.options == options
  {
    if Truthy(Lookup(recall, k)) && (k !in options || options[k] == recall[k]) then
      if segmentKeys.None? || k in segmentKeys.value then Step(true, options[k := recall[k]])
      else Step(false, options)
    else Step(false, options)
  }

  /**
   `normalize_controller_action_id!`: controller, action and id are tried
   in that order and the first one not inherited ends the run, so a key is
   inherited exactly when it and every key before it are inheritable.
   */
  function NormalizeControllerActionId(options: map<Key, Value>, recall: map<Key, Value>, segmentKeys: Option<seq<Key>>): (r: map<Key, Value>)
    ensures r - {Controller, Action, Id} == options - {Controller, Action, Id}
    ensures Inheritable(Controller, options, recall, segmentKeys)
      ==> Controller in r && r[Controller] == recall[Controller]
    ensures !Inheritable(Controller, options, recall, segmentKeys)
      ==> SameAt(r, options, Controller)
    ensures Inheritable(Controller, options, recall, segmentKeys) && Inheritable(Action, options, recall, segmentKeys)
      ==> Action in r && r[Action] == recall[Action]
    ensures !(Inheritable(Controller, options, recall, segmentKeys) && Inheritable(Action, options, recall, segmentKeys))
      ==> SameAt(r, options, Action)
    ensures Inheritable(Controller, options, recall, segmentKeys) && Inheritable(Action, options, recall, segmentKeys)
        && Inheritable(Id, options, recall, segmentKeys)
      ==> Id in r && r[Id] == recall[Id]
    ensures !(Inheritable(Controller, options, recall, segmentKeys) && Inheritable(Action, options, recall, segmentKeys)
        && Inheritable(Id, options, recall, segmentKeys))
      ==> SameAt(r, options, Id)
  {
    var c := UseRecallFor(Controller, options, recall, segmentKeys);
    if !c.taken then c.options
    else
      var a := UseRecallFor(Action, c.options, recall, segmentKeys);
      if !a.taken then a.options
      else UseRecallFor(Id, a.options, recall, segmentKeys).options
  }

  /** `controller.start_with?("/")`; only Strings answer it. */
  function StartsWithSlash(v: Value): (r: Result<bool>)
    ensures r.Ok? <==> v.Str?
    ensures r.Ok? ==> (r.value <==> |v.s| > 0 && v.s[0] == Slash)
  {
    if v.Str? then Ok(|v.s| > 0 && v.s[0] == Slash)
    else Err(NoMethodError("start_with?"))
  }

  /** `different_controller?` */
  predicate DifferentController(options: map<Key, Value>, recall: map<Key, Value>) {
    Truthy(Lookup(recall, Controller))
    && ToParam(Lookup(options, Controller)) != ToParam(Lookup(recall, Controller))
  }

  /**
   The controller `use_relative_controller!` computes from the current one:
   its last (number of slashes in `requested` + 1) segments are replaced by
   `requested`.
   */
  function RelativeTo(current: string, requested: string): string {
    var oldParts := Split(current);
    var size := Count(requested, Slash) + 1;
    var keep := if |oldParts| >= size then |oldParts| - size else 0;
    Join(oldParts[..keep] + [requested])
  }

  /**
   `use_relative_controller!`: with no route name, a controller other
   than the current one and not starting with '/' is resolved relative to
   the current controller's namespace.
   */
  function UseRelativeController(namedRoute: Option<Key>, options: map<Key, Value>, recall: map<Key, Value>): (r: Result<map<Key, Value>>)
    ensures r.Ok? ==> r.value - {Controller} == options - {Controller}
    ensures namedRoute.Some? || !DifferentController(options, recall) ==> r == Ok(options)
    ensures r.Err? ==> r.error.NoMethodError?
    ensures namedRoute.None? && DifferentController(options, recall) && Lookup(options, Controller) == Nil
      ==> r == Err(NoMethodError("start_with?"))
    ensures r.Ok? && r.value != options ==>
      && Lookup(options, Controller).Str? && Lookup(recall, Controller).Str?
      && Lookup(r.value, Controller) == Str(RelativeTo(Lookup(recall, Controller).s, Lookup(options, Controller).s))
  {
    if namedRoute.Some? || !DifferentController(options, recall) then Ok(options)
    else
      var requested := Lookup(options, Controller);
      var absolute :- StartsWithSlash(requested);
      if absolute then Ok(options)
      else
        var current := Lookup(recall, Controller);
        if !current.Str? then Err(NoMethodError("split"))
        else Ok(options[Controller := Str(RelativeTo(current.s, requested.s))])
  }

  /** `normalize_controller!`: exactly one leading '/' is removed from the controller. */
  function NormalizeController(options: map<Key, Value>): (r: Result<map<Key, Value>>)
    ensures r.Ok? ==> r.value - {Controller} == options - {Controller}
    ensures r.Ok? <==> !Truthy(Lookup(options, Controller)) || options[Controller].Str?
    ensures r.Err? ==> r.error == NoMethodError("start_with?")
    ensures r.Ok? && Truthy(Lookup(options, Controller)) ==>
      var c := options[Controller].s;
      Lookup(r.value, Controller) == Str(if |c| > 0 && c[0] == Slash then c[1..] else c)
    ensures r.Ok? && !Truthy(Lookup(options, Controller)) ==> r.value == options
  {
    var c := Lookup(options, Controller);
    if Truthy(c) then
      var absolute :- StartsWithSlash(c);
      if absolute then Ok(options[Controller := Str(c.s[1..])])
      else Ok(options[Controller := c])
    else Ok(options)
  }

  /** `normalize_action!`: an 'index' action moves from the options into the recall. */
  function NormalizeAction(n: Normalized): (r: Normalized)
    ensures Lookup(r.options, Action) != Index
    ensures Lookup(n.options, Action) == Index ==> Action !in r.options && Lookup(r.recall, Action) == Index
    ensures Lookup(n.options, Action) != Index ==> r == n
    ensures r.options - {Action} == n.options - {Action}
    ensures r.recall - {Action} == n.recall - {Action}
  {
    if Lookup(n.options, Action) == Index
    then Normalized(n.options - {Action}, n.recall[Action := Index])
    else n
  }

  /**
   `Generator.new(named_route, options, recall, set)`: the six steps in the
   constructor's order. After it, the recall always names an action, the
   options never carry the 'index' action, a set controller is a String,
   and only the controller, action and id of the options and the action of
   the recall may have changed.
   */
  function Normalize(namedRoute: Option<Key>, options: map<Key, Value>, recall: map<Key, Value>, named: NamedRouteCollection): (r: Result<Normalized>)
    ensures r.Ok? ==> Action in r.value.recall && Truthy(r.value.recall[Action])
    ensures r.Ok? ==> Lookup(r.value.options, Action) != Index
    ensures r.Ok? ==> Truthy(Lookup(r.value.options, Controller)) ==> r.value.options[Controller].Str?
    ensures r.Ok? ==> r.value.options - {Controller, Action, Id} == options - {Controller, Action, Id}
    ensures r.Ok? ==> r.value.recall - {Action} == recall - {Action}
    ensures r.Err? ==> r.error.NoMethodError?
  {
    var recall1 := NormalizeRecall(recall);
    var options1 := NormalizeOptions(options);
    var options2 := NormalizeControllerActionId(options1, recall1, SegmentKeysOf(named, namedRoute));
    var options3 :- UseRelativeController(namedRoute, options2, recall1);
    var options4 :- NormalizeController(options3);
    var n := NormalizeAction(Normalized(options4, recall1));
    NormalizeFrame(options, options1, options2, options3, options4, n.options);
    assert Lookup(n.options, Controller) == Lookup(n.options - {Action}, Controller);
    assert Lookup(options4, Controller) == Lookup(options4 - {Action}, Controller);
    Ok(n)
  }

  /**
   The steps of the constructor change, in turn, only the controller and
   action, the controller, action and id, the controller, the controller,
   and the action; so together they change only those three keys.
   */
  lemma NormalizeFrame(options: map<Key, Value>, o1: map<Key, Value>, o2: map<Key, Value>,
                       o3: map<Key, Value>, o4: map<Key, Value>, o5: map<Key, Value>)
    requires o1 - {Controller, Action} == options - {Controller, Action}
    requires o2 - {Controller, Action, Id} == o1 - {Controller, Action, Id}
    requires o3 - {Controller} == o2 - {Controller}
    requires o4 - {Controller} == o3 - {Controller}
    requires o5 - {Action} == o4 - {Action}
    ensures o5 - {Controller, Action, Id} == options - {Controller, Action, Id}
  {
    var keys := {Controller, Action, Id};
    forall k | k !in keys
      ensures SameAt(o5, options, k)
    {
      assert SameAt(o1 - {Controller, Action}, options - {Controller, Action}, k);
      assert SameAt(o2 - keys, o1 - keys, k);
      assert SameAt(o3 - {Controller}, o2 - {Controller}, k);
      assert SameAt(o4 - {Controller}, o3 - {Controller}, k);
      assert SameAt(o5 - {Action}, o4 - {Action}, k);
    }
    assert forall k :: k in o5 - keys <==> k in options - keys;
  }

  /**
   With no route name, a current controller made of the segments
   `kept + replaced` and a requested controller with |replaced| - 1 slashes
   (not starting with '/') give `kept` followed by the requested controller.
   */
  lemma RelativeControllerReplacesTail(kept: seq<string>, replaced: seq<string>, requested: string)
    requires forall i :: 0 <= i < |kept| ==> SlashFree(kept[i])
    requires forall i :: 0 <= i < |replaced| ==> SlashFree(replaced[i])
    requires |replaced| == Count(requested, Slash) + 1
    requires replaced[|replaced| - 1] != ""
    ensures RelativeTo(Join(kept + replaced), requested) == Join(kept + [requested])
  {
    var parts := kept + replaced;
    SplitJoin(parts);
    assert parts[..|kept|] == kept;
  }

  /**
   With no route name, a String controller other than the current String
   controller and not starting with '/' is resolved by `RelativeTo`.
   */
  lemma RelativeControllerStep(options: map<Key, Value>, recall: map<Key, Value>, current: string, requested: string)
    requires Lookup(options, Controller) == Str(requested)
    requires Lookup(recall, Controller) == Str(current)
    requires requested != current
    requires |requested| == 0 || requested[0] != Slash
    ensures UseRelativeController(None, options, recall) == Ok(options[Controller := Str(RelativeTo(current, requested))])
  {
    assert DifferentController(options, recall);
    assert StartsWithSlash(Lookup(options, Controller)) == Ok(false);
  }

  lemma RelativeControllerResolution(options: map<Key, Value>, recall: map<Key, Value>,
                                     kept: seq<string>, replaced: seq<string>, requested: string)
    requires forall i :: 0 <= i < |kept| ==> SlashFree(kept[i])
    requires forall i :: 0 <= i < |replaced| ==> SlashFree(replaced[i])
    requires |replaced| == Count(requested, Slash) + 1
    requires replaced[|replaced| - 1] != ""
    requires Lookup(options, Controller) == Str(requested)
    requires Lookup(recall, Controller) == Str(Join(kept + replaced))
    requires requested != Join(kept + replaced)
    requires |requested| == 0 || requested[0] != Slash
    ensures UseRelativeController(None, options, recall) == Ok(options[Controller := Str(Join(kept + [requested]))])
  {
    RelativeControllerStep(options, recall, Join(kept + replaced), requested);
    RelativeControllerReplacesTail(kept, replaced, requested);
  }

  /** The example of the source's comment: "foo/bar/baz" and "baz/bat" give "foo/baz/bat". */
  lemma RelativeControllerExample()
    ensures RelativeTo("foo/bar/baz", "baz/bat") == "foo/baz/bat"
  {
    assert Count("baz/bat", Slash) == 1;
    assert Join(["foo", "bar", "baz"]) == "foo/bar/baz";
    assert Join(["foo", "baz/bat"]) == "foo/baz/bat";
    RelativeControllerReplacesTail(["foo"], ["bar", "baz"], "baz/bat");
    assert ["foo"] + ["bar", "baz"] == ["foo", "bar", "baz"];
    assert ["foo"] + ["baz/bat"] == ["foo", "baz/bat"];
  }

  /**
   An explicit controller with no action given ends with the 'index'
   action in the recall and none in the options, whatever action was
   recalled.
   */
  lemma ExplicitControllerImpliesIndex(namedRoute: Option<Key>, options: map<Key, Value>, recall: map<Key, Value>, named: NamedRouteCollection)
    requires Truthy(Lookup(options, Controller))
    requires !Truthy(Lookup(options, Action))
    ensures var r := Normalize(namedRoute, options, recall, named);
      r.Ok? ==> Action !in r.value.options && Lookup(r.value.recall, Action) == Index
  {
    var recall1 := NormalizeRecall(recall);
    var options1 := NormalizeOptions(options);
    assert Lookup(options1, Action) == Index;
    var options2 := NormalizeControllerActionId(options1, recall1, SegmentKeysOf(named, namedRoute));
    assert Lookup(options2, Action) == Index;
    var r3 := UseRelativeController(namedRoute, options2, recall1);
    if r3.Ok? {
      assert Lookup(r3.value, Action) == Lookup(r3.value - {Controller}, Action);
      var r4 := NormalizeController(r3.value);
      if r4.Ok? {
        assert Lookup(r4.value, Action) == Lookup(r4.value - {Controller}, Action);
      }
    }
  }

  /** A controller given as "/x" is taken as is, not made relative, and loses that one slash. */
  lemma AbsoluteControllerLosesOneSlash(namedRoute: Option<Key>, options: map<Key, Value>, recall: map<Key, Value>, named: NamedRouteCollection, x: string)
    requires Lookup(options, Controller) == Str([Slash] + x)
    ensures var r := Normalize(namedRoute, options, recall, named);
      r.Ok? && Lookup(r.value.options, Controller) == Str(x)
  {
    var recall1 := NormalizeRecall(recall);
    var options1 := NormalizeOptions(options);
    var options2 := NormalizeControllerActionId(options1, recall1, SegmentKeysOf(named, namedRoute));
    assert Lookup(options2, Controller) == Str([Slash] + x);
    assert UseRelativeController(namedRoute, options2, recall1) == Ok(options2);
    assert ([Slash] + x)[1..] == x;
  }

  /**
   With no route name and nothing but extra keys given, the recalled
   controller, action and id are all carried over.
   */
  lemma ImplicitControllerInheritsRecall(options: map<Key, Value>, recall: map<Key, Value>, named: NamedRouteCollection,
                                         c: string, a: string, id: Value)
    requires Controller !in options && Action !in options && Id !in options
    requires Lookup(recall, Controller) == Str(c) && (|c| == 0 || c[0] != Slash)
    requires Lookup(recall, Action) == Str(a) && a != "index"
    requires Lookup(recall, Id) == id && Truthy(id)
    ensures Normalize(None, options, recall, named)
      == Ok(Normalized(options[Controller := Str(c)][Action := Str(a)][Id := id], recall))
  {
    assert NormalizeRecall(recall) == recall;
    assert NormalizeOptions(options) == options;
    var options2 := NormalizeControllerActionId(options, recall, None);
    var want := options[Controller := Str(c)][Action := Str(a)][Id := id];
    assert options2 == want by {
      assert options2 - {Controller, Action, Id} == options - {Controller, Action, Id};
      assert forall k :: k in options2 <==> k in want;
    }
    assert !DifferentController(options2, recall);
    assert UseRelativeController(None, options2, recall) == Ok(options2);
    assert options2[Controller := Str(c)] == options2;
    assert NormalizeController(options2) == Ok(options2);
    assert NormalizeAction(Normalized(options2, recall)) == Normalized(options2, recall);
  }

  /**
   When the named route exists but does not have a :controller segment,
   the recalled controller is not taken, and so neither are the recalled
   action and id.
   */
  lemma NamedRouteStopsInheritance(name: Key, options: map<Key, Value>, recall: map<Key, Value>, named: NamedRouteCollection)
    requires HasKey(named, name) && Controller !in named.routes[name].segmentKeys
    requires Controller !in options && Action !in options && Id !in options
    ensures var r := Normalize(Some(name), options, recall, named);
      r.Ok? && Controller !in r.value.options && Action !in r.value.options && Id !in r.value.options
  {
  }

  /** The example of the source's comment on `normalize_options!`. */
  lemma ExplicitControllerExample()
    ensures Normalize(None, map[Controller := Str("content")],
                      map[Controller := Str("content"), Action := Str("show")], Empty())
      == Ok(Normalized(map[Controller := Str("content")],
                       map[Controller := Str("content"), Action := Index]))
  {
    var options := map[Controller := Str("content")];
    var recall := map[Controller := Str("content"), Action := Str("show")];
    var options1 := map[Controller := Str("content"), Action := Index];
    assert NormalizeRecall(recall) == recall;
    assert NormalizeOptions(options) == options1;
    assert NormalizeControllerActionId(options1, recall, None) == options1;
    assert UseRelativeController(None, options1, recall) == Ok(options1);
    assert NormalizeController(options1) == Ok(options1);
    assert options1 - {Action} == options;
    assert recall[Action := Index] == map[Controller := Str("content"), Action := Index];
    assert NormalizeAction(Normalized(options1, recall)) == Normalized(options, recall[Action := Index]);
  }
}

=== FILE: named_routes.dfy ===
/**
 `RouteSet::NamedRouteCollection`: the registry of named routes, and the
 names of the `<name>_path` and `<name>_url` helpers it has defined.
 Ruby hashes and Sets remember insertion order, so the registry keeps the
 order in which names were first added.
 */
module NamedRoutes {
  import opened RubyValues
  import opened Seqs

  /**
   The parts of a `Journey::Route` the route set reads. How they are
   computed from the route's path pattern belongs to Journey.
   */
  datatype Route = Route(
    segmentKeys: seq<Key>,
    requiredParts: seq<Key>,
    pathRequirements: map<Key, string>,
    requirements: map<Key, string>,
    glob: bool
  )

  datatype NamedRouteCollection = NamedRouteCollection(
    order: seq<Key>,              // `routes.keys`
    routes: map<Key, Route>,
    pathHelpers: seq<Key>,        // the Set `@path_helpers`, in insertion order
    urlHelpers: seq<Key>          // the Set `@url_helpers`, in insertion order
  )

  function PathHelperName(name: Key): Key {
    name + "_path"
  }

  function UrlHelperName(name: Key): Key {
    name + "_url"
  }

  /** The state every collection reachable by `add` and `clear!` is in. */
  ghost predicate Valid(c: NamedRouteCollection) {
    && NoDup(c.order)
    && (forall k :: k in c.routes <==> k in c.order)
    && |c.pathHelpers| == |c.order|
    && |c.urlHelpers| == |c.order|
    && (forall i :: 0 <= i < |c.order| ==> c.pathHelpers[i] == PathHelperName(c.order[i]))
    && (forall i :: 0 <= i < |c.order| ==> c.urlHelpers[i] == UrlHelperName(c.order[i]))
  }

  /** `NamedRouteCollection.new` */
  function Empty(): (c: NamedRouteCollection)
    ensures Valid(c)
    ensures Length(c) == 0
  {
    NamedRouteCollection([], map[], [], [])
  }

  /** Adding a member to a Ruby Set keeps the Set as it is when the member is there. */
  function SetAdd(s: seq<Key>, x: Key): (r: seq<Key>)
    ensures x in r
    ensures forall y :: y in r <==> y in s || y == x
  {
    if x in s then s else s + [x]
  }

  /** `add(name, route)`, also spelled `[]=` */
  function Add(c: NamedRouteCollection, name: Key, route: Route): (r: NamedRouteCollection)
    ensures Get(r, name) == Some(route) && HasKey(r, name)
    ensures RouteDefined(r, PathHelperName(name)) && RouteDefined(r, UrlHelperName(name))
    ensures forall other :: other != name ==> Get(r, other) == Get(c, other)
    ensures forall helper :: RouteDefined(c, helper) ==> RouteDefined(r, helper)
    ensures HasKey(c, name) ==> Length(r) == Length(c) && Names(r) == Names(c)
    ensures !HasKey(c, name) ==> Length(r) == Length(c) + 1 && Names(r) == Names(c) + [name]
  {
    NamedRouteCollection(
      if name in c.routes then c.order else c.order + [name],
      c.routes[name := route],
      SetAdd(c.pathHelpers, PathHelperName(name)),
      SetAdd(c.urlHelpers, UrlHelperName(name)))
  }

  /** `get(name)`, also spelled `[]`: the route, or nil. */
  function Get(c: NamedRouteCollection, name: Key): (r: Option<Route>)
    ensures r.Some? <==> HasKey(c, name)
  {
    if name in c.routes then Some(c.routes[name]) else None
  }

  /** `key?(name)` */
  predicate HasKey(c: NamedRouteCollection, name: Key) {
    name in c.routes
  }

  /** `route_defined?(name)`: whether a helper of that name was defined. */
  predicate RouteDefined(c: NamedRouteCollection, name: Key) {
    name in c.pathHelpers || name in c.urlHelpers
  }

  /** `helper_names` */
  function HelperNames(c: NamedRouteCollection): seq<Key> {
    c.pathHelpers + c.urlHelpers
  }

  /** `names` */
  function Names(c: NamedRouteCollection): (r: seq<Key>)
    ensures Valid(c) ==> NoDup(r) && forall n :: n in r <==> HasKey(c, n)
  {
    c.order
  }

  /** `length` */
  function Length(c: NamedRouteCollection): (r: nat)
    ensures r == 0 <==> forall n :: !HasKey(c, n)
  {
    assert forall n :: n in c.routes ==> HasKey(c, n);
    |c.routes|
  }

  /** `clear!`, also spelled `clear` */
  function Clear(c: NamedRouteCollection): (r: NamedRouteCollection)
    ensures Valid(r)
    ensures Length(r) == 0 && Names(r) == [] && HelperNames(r) == []
    ensures forall n :: !HasKey(r, n) && !RouteDefined(r, n) && Get(r, n) == None
  {
    NamedRouteCollection([], map[], [], [])
  }

  lemma SuffixInjective(a: Key, b: Key, suffix: string)
    requires a + suffix == b + suffix
    ensures a == b
  {
    assert |a| == |b|;
    assert a == (a + suffix)[..|a|];
    assert b == (b + suffix)[..|b|];
  }

  /** In a valid collection the order lists each name once, so its length is `length`. */
  lemma {:induction false} LengthIsNamesCount(c: NamedRouteCollection)
    requires Valid(c)
    ensures Length(c) == |Names(c)|
  {
    NoDupCardinality(c.order);
    assert c.routes.Keys == set k | k in c.order;
  }

  lemma {:induction false} NoDupCardinality(xs: seq<Key>)
    requires NoDup(xs)
    ensures |set k | k in xs| == |xs|
    decreases |xs|
  {
    if |xs| > 0 {
      var rest := xs[..|xs| - 1];
      var last := xs[|xs| - 1];
      NoDupCardinality(rest);
      assert (set k | k in xs) == (set k | k in rest) + {last};
      assert last !in rest;
    }
  }

  /** `add` keeps a collection valid. */
  lemma AddValid(c: NamedRouteCollection, name: Key, route: Route)
    requires Valid(c)
    ensures Valid(Add(c, name, route))
  {
    var r := Add(c, name, route);
    if name in c.routes {
      var i :| 0 <= i < |c.order| && c.order[i] == name;
      assert c.pathHelpers[i] == PathHelperName(name);
      assert c.urlHelpers[i] == UrlHelperName(name);
    } else {
      forall i | 0 <= i < |c.pathHelpers|
        ensures c.pathHelpers[i] != PathHelperName(name)
        ensures c.urlHelpers[i] != UrlHelperName(name)
      {
        if c.pathHelpers[i] == PathHelperName(name) {
          SuffixInjective(c.order[i], name, "_path");
        }
        if c.urlHelpers[i] == UrlHelperName(name) {
          SuffixInjective(c.order[i], name, "_url");
        }
      }
    }
  }

  /**
   In a valid collection a helper is defined exactly when it is the
   `_path` or `_url` helper of a registered name.
   */
  lemma RouteDefinedIff(c: NamedRouteCollection, helper: Key)
    requires Valid(c)
    ensures RouteDefined(c, helper) <==>
      exists k :: k in c.routes && (helper == PathHelperName(k) || helper == UrlHelperName(k))
  {
    if RouteDefined(c, helper) {
      if helper in c.pathHelpers {
        var i :| 0 <= i < |c.pathHelpers| && c.pathHelpers[i] == helper;
        assert c.order[i] in c.routes;
      } else {
        var i :| 0 <= i < |c.urlHelpers| && c.urlHelpers[i] == helper;
        assert c.order[i] in c.routes;
      }
    }
    if exists k :: k in c.routes && (helper == PathHelperName(k) || helper == UrlHelperName(k)) {
      var k :| k in c.routes && (helper == PathHelperName(k) || helper == UrlHelperName(k));
      var i :| 0 <= i < |c.order| && c.order[i] == k;
      assert c.pathHelpers[i] == PathHelperName(k);
      assert c.urlHelpers[i] == UrlHelperName(k);
    }
  }
}

=== FILE: route_names.dfy ===
/**
 The route-name checks `RouteSet#add_route` makes before it registers a
 named route: a non-blank name must look like an identifier, and a name
 already in the registry is refused.
 */
module RouteNames {
  import opened RubyValues
  import opened Strings
  import opened NamedRoutes

  /** Unicode White_Space, which is what `[[:space:]]` matches in a UTF-8 String. */
  predicate IsSpace(c: char) {
    || ('\U{9}' <= c <= '\U{D}') || c == ' ' || c == '\U{85}' || c == '\U{A0}' || c == '\U{1680}'
    || ('\U{2000}' <= c <= '\U{200A}') || c == '\U{2028}' || c == '\U{2029}' || c == '\U{202F}'
    || c == '\U{205F}' || c == '\U{3000}'
  }

  /**
   ActiveSupport's `blank?`: nil, a String of white space only, an empty
   Symbol. Other objects do not answer `empty?` and are never blank.
   */
  predicate Blank(v: Value) {
    match v
    case Nil => true
    case Str(s) => forall i :: 0 <= i < |s| ==> IsSpace(s[i])
    case Sym(n) => n == ""
    case Obj(_, _, _) => false
  }

  /** `[_a-z]` under the `i` flag. */
  predicate IsHeadChar(c: char) {
    c == '_' || ('a' <= c <= 'z') || ('A' <= c <= 'Z')
  }

  /** `\w` */
  predicate IsWordChar(c: char) {
    IsHeadChar(c) || ('0' <= c <= '9')
  }

  /** `[_a-z]\w*` covers the whole of `s`. */
  predicate IdentifierLike(s: string) {
    |s| > 0 && IsHeadChar(s[0]) && forall i :: 1 <= i < |s| ==> IsWordChar(s[i])
  }

  /**
   `s.match(/^[_a-z]\w*$/i)` as written. In a Ruby regexp `^` and `$`
   anchor at line boundaries, so the match succeeds when ANY line of the
   name is identifier-like.
   */
  predicate NameAcceptedAsWritten(s: string) {
    exists line :: line in Fields(s, '\n') && IdentifierLike(line)
  }

  /** The name check the pattern evidently means: the whole name is an identifier. */
  predicate ValidRouteName(s: string) {
    IdentifierLike(s)
  }

  /** An identifier-like name has no line break, so its helper names are identifiers too. */
  lemma ValidNameGivesIdentifierHelpers(s: string)
    requires ValidRouteName(s)
    ensures '\n' !in s
    ensures IdentifierLike(PathHelperName(s)) && IdentifierLike(UrlHelperName(s))
  {
    var p := PathHelperName(s);
    forall i | 1 <= i < |p| ensures IsWordChar(p[i]) {
      if i >= |s| {
        assert p[i] == "_path"[i - |s|];
      }
    }
    var u := UrlHelperName(s);
    forall i | 1 <= i < |u| ensures IsWordChar(u[i]) {
      if i >= |s| {
        assert u[i] == "_url"[i - |s|];
      }
    }
  }

  /**
   The as-written check accepts every name the intended one accepts, and
   the two agree on names without a line break.
   */
  lemma AsWrittenAgreesOnSingleLines(s: string)
    ensures ValidRouteName(s) ==> NameAcceptedAsWritten(s)
    ensures '\n' !in s ==> (NameAcceptedAsWritten(s) <==> ValidRouteName(s))
  {
    if ValidRouteName(s) {
      ValidNameGivesIdentifierHelpers(s);
    }
    if '\n' !in s {
      FieldsWithoutSeparator(s, '\n');
    }
  }

  /** A name whose first line is not an identifier, yet passes the as-written check. */
  lemma AsWrittenAcceptsMultiLineName()
    ensures NameAcceptedAsWritten("1x\nposts")
    ensures !ValidRouteName("1x\nposts")
  {
    var s := "1x\nposts";
    var t := s[1..];
    var u := s[2..];
    assert t == "x\nposts" && t[1..] == u;
    assert u == "\nposts" && u[1..] == "posts";
    FieldsWithoutSeparator("posts", '\n');
    assert Fields(u, '\n') == ["", "posts"];
    assert ['x'] + "" == "x";
    assert Fields(t, '\n') == ["x", "posts"];
    assert ['1'] + "x" == "1x";
    assert Fields(s, '\n') == ["1x", "posts"];
    assert IdentifierLike("posts");
  }

  /** `name.to_sym`: only Strings and Symbols answer it. */
  function SymbolName(name: Value): (r: Result<Key>)
    ensures r.Ok? <==> name.Str? || name.Sym?
    ensures r.Ok? ==> r.value == ToS(name)
  {
    match name
    case Str(s) => Ok(s)
    case Sym(n) => Ok(n)
    case Nil => Err(NoMethodError("to_sym"))
    case Obj(_, _, _) => Err(NoMethodError("to_sym"))
  }

  /**
   What `add_route` does with a name that passed the pattern check: nil
   registers nothing, a name in use is refused, any other name is added.
   */
  function RegisterName(c: NamedRouteCollection, name: Value, route: Route): (r: Result<NamedRouteCollection>)
    ensures name == Nil ==> r == Ok(c)
    ensures name.Obj? ==> r == Err(NoMethodError("to_sym"))
    ensures name.Str? || name.Sym? ==>
      if HasKey(c, ToS(name)) then r == Err(RouteNameInUse(ToS(name)))
      else r == Ok(Add(c, ToS(name), route))
  {
    if !Truthy(name) then Ok(c)
    else
      var key :- SymbolName(name);
      if HasKey(c, key) then Err(RouteNameInUse(ToS(name)))
      else Ok(Add(c, key, route))
  }

  /**
   The name checks of `add_route`, and the registration at its end, with
   the whole-name check the pattern evidently means.
   */
  function AddRoute(c: NamedRouteCollection, name: Value, route: Route): (r: Result<NamedRouteCollection>)
    ensures !Blank(name) && !ValidRouteName(ToS(name)) ==> r == Err(InvalidRouteName(ToS(name)))
    ensures name == Nil ==> r == Ok(c)
    ensures name.Obj? && ValidRouteName(name.text) ==> r == Err(NoMethodError("to_sym"))
    ensures (name.Str? || name.Sym?) && (Blank(name) || ValidRouteName(ToS(name))) ==>
      if HasKey(c, ToS(name)) then r == Err(RouteNameInUse(ToS(name)))
      else r.Ok? && Get(r.value, ToS(name)) == Some(route) && Length(r.value) == Length(c) + 1
    ensures r.Ok? ==> forall n :: n in c.routes ==> Get(r.value, n) == Get(c, n)
    ensures r.Ok? ==> forall n :: n != ToS(name) ==> Get(r.value, n) == Get(c, n)
  {
    if !(Blank(name) || ValidRouteName(ToS(name))) then Err(InvalidRouteName(ToS(name)))
    else RegisterName(c, name, route)
  }

  /** The name checks of `add_route` as written, with the line-anchored pattern. */
  function AddRouteAsWritten(c: NamedRouteCollection, name: Value, route: Route): (r: Result<NamedRouteCollection>)
    ensures !Blank(name) && !NameAcceptedAsWritten(ToS(name)) ==> r == Err(InvalidRouteName(ToS(name)))
    ensures Blank(name) || NameAcceptedAsWritten(ToS(name)) ==> r == RegisterName(c, name, route)
  {
    if !(Blank(name) || NameAcceptedAsWritten(ToS(name))) then Err(InvalidRouteName(ToS(name)))
    else RegisterName(c, name, route)
  }

  /**
   The two checks part on a multi-line name: as written, `add_route`
   registers "1x\nposts"; with the whole-name check it refuses it.
   */
  lemma AddRouteAsWrittenRegistersMultiLineName(route: Route)
    ensures AddRouteAsWritten(Empty(), Str("1x\nposts"), route) == Ok(Add(Empty(), "1x\nposts", route))
    ensures AddRoute(Empty(), Str("1x\nposts"), route) == Err(InvalidRouteName("1x\nposts"))
  {
    AsWrittenAcceptsMultiLineName();
    assert !IsSpace("1x\nposts"[0]);
    assert !Blank(Str("1x\nposts"));
  }

  /** Blank String names pass the check and are registered, as the code allows. */
  lemma BlankStringNameIsRegistered(c: NamedRouteCollection, route: Route)
    requires !HasKey(c, "")
    ensures AddRoute(c, Str(""), route) == Ok(Add(c, "", route))
  {
  }
}

=== FILE: route_set.dfy ===
/**
 The life cycle of a `RouteSet`: `draw`, `append`, `prepend`, `finalize!`
 and `clear!`. What a routes block does when it is evaluated belongs to the
 routing DSL; here it is a function `run` from the named-route registry
 before the block to the registry after it.
 */
module RouteSetLifecycle {
  import opened NamedRoutes

  /** A routes block, known by its identity. */
  datatype Block = Block(id: nat)

  type Runner = (NamedRouteCollection, Block) -> NamedRouteCollection

  datatype RouteSet = RouteSet(
    finalized: bool,
    disableClearAndFinalize: bool,
    appendBlocks: seq<Block>,
    prependBlocks: seq<Block>,
    named: NamedRouteCollection,
    evaluated: seq<Block>)

  /** A new route set: nothing drawn, nothing queued, not finalized, clearing enabled. */
  function New(): (r: RouteSet)
    ensures !r.finalized && !r.disableClearAndFinalize
    ensures r.named == Empty() && r.evaluated == []
    ensures r.appendBlocks == [] && r.prependBlocks == []
  {
    RouteSet(false, false, [], [], Empty(), [])
  }

  /** The `disable_clear_and_finalize=` writer. */
  function SetDisableClearAndFinalize(s: RouteSet, flag: bool): (r: RouteSet)
    ensures r.disableClearAndFinalize == flag
    ensures r == s.(disableClearAndFinalize := r.disableClearAndFinalize)
  {
    s.(disableClearAndFinalize := flag)
  }

  /** Evaluate the blocks in order, logging each one. */
  function RunAll(s: RouteSet, blocks: seq<Block>, run: Runner): (r: RouteSet)
    ensures r.evaluated == s.evaluated + blocks
    ensures r == s.(named := r.named, evaluated := r.evaluated)
    decreases |blocks|
  {
    if |blocks| == 0 then s
    else RunAll(EvalBlock(s, blocks[0], run), blocks[1..], run)
  }

  /** `eval_block(block)` */
  function EvalBlock(s: RouteSet, b: Block, run: Runner): (r: RouteSet)
    ensures r.evaluated == s.evaluated + [b]
    ensures r.named == run(s.named, b)
    ensures r == s.(named := r.named, evaluated := r.evaluated)
  {
    s.(named := run(s.named, b), evaluated := s.evaluated + [b])
  }

  /** The registry after the blocks run one after another from `c`. */
  function Replay(c: NamedRouteCollection, blocks: seq<Block>, run: Runner): NamedRouteCollection
    decreases |blocks|
  {
    if |blocks| == 0 then c else Replay(run(c, blocks[0]), blocks[1..], run)
  }

  lemma {:induction false} RunAllReplays(s: RouteSet, blocks: seq<Block>, run: Runner)
    ensures RunAll(s, blocks, run).named == Replay(s.named, blocks, run)
    decreases |blocks|
  {
    if |blocks| > 0 {
      RunAllReplays(EvalBlock(s, blocks[0], run), blocks[1..], run);
    }
  }

  lemma {:induction false} ReplayConcat(c: NamedRouteCollection, xs: seq<Block>, ys: seq<Block>, run: Runner)
    ensures Replay(c, xs + ys, run) == Replay(Replay(c, xs, run), ys, run)
    decreases |xs|
  {
    if |xs| == 0 {
      assert xs + ys == ys;
    } else {
      assert (xs + ys)[1..] == xs[1..] + ys;
      ReplayConcat(run(c, xs[0]), xs[1..], ys, run);
    }
  }

  /** `append(&block)`: queued to run on every `finalize!`. */
  function Append(s: RouteSet, b: Block): (r: RouteSet)
    ensures r.appendBlocks == s.appendBlocks + [b]
    ensures r == s.(appendBlocks := r.appendBlocks)
  {
    s.(appendBlocks := s.appendBlocks + [b])
  }

  /** `prepend(&block)`: queued to run on every `clear!`. */
  function Prepend(s: RouteSet, b: Block): (r: RouteSet)
    ensures r.prependBlocks == s.prependBlocks + [b]
    ensures r == s.(prependBlocks := r.prependBlocks)
  {
    s.(prependBlocks := s.prependBlocks + [b])
  }

  /** `finalize!`: the first call runs the appended blocks; later calls do nothing. */
  function Finalize(s: RouteSet, run: Runner): (r: RouteSet)
    ensures r.finalized
    ensures s.finalized ==> r == s
    ensures !s.finalized ==> r.named == Replay(s.named, s.appendBlocks, run)
    ensures !s.finalized ==> r.evaluated == s.evaluated + s.appendBlocks
    ensures r.appendBlocks == s.appendBlocks && r.prependBlocks == s.prependBlocks
    ensures r.disableClearAndFinalize == s.disableClearAndFinalize
  {
    if s.finalized then s
    else
      RunAllReplays(s, s.appendBlocks, run);
      RunAll(s, s.appendBlocks, run).(finalized := true)
  }

  /**
   `clear!`: not finalized, and the registry rebuilt from an empty one by
   the prepended blocks alone, whatever was registered before.
   */
  function Clear(s: RouteSet, run: Runner): (r: RouteSet)
    ensures !r.finalized
    ensures r.named == Replay(Empty(), s.prependBlocks, run)
    ensures r.evaluated == s.evaluated + s.prependBlocks
    ensures r.appendBlocks == s.appendBlocks && r.prependBlocks == s.prependBlocks
    ensures r.disableClearAndFinalize == s.disableClearAndFinalize
  {
    var cleared := s.(finalized := false, named := NamedRoutes.Clear(s.named));
    RunAllReplays(cleared, s.prependBlocks, run);
    RunAll(cleared, s.prependBlocks, run)
  }

  /** `draw(&block)` */
  function Draw(s: RouteSet, b: Block, run: Runner): (r: RouteSet)
    ensures s.disableClearAndFinalize ==> r == EvalBlock(s, b, run)
    ensures !s.disableClearAndFinalize ==> r.finalized
    ensures !s.disableClearAndFinalize ==> r.evaluated == s.evaluated + s.prependBlocks + [b] + s.appendBlocks
    ensures r.appendBlocks == s.appendBlocks && r.prependBlocks == s.prependBlocks
    ensures r.disableClearAndFinalize == s.disableClearAndFinalize
  {
    if s.disableClearAndFinalize then EvalBlock(s, b, run)
    else Finalize(EvalBlock(Clear(s, run), b, run), run)
  }

  lemma FinalizeIdempotent(s: RouteSet, run: Runner)
    ensures Finalize(Finalize(s, run), run) == Finalize(s, run)
  {
  }

  /**
   Drawing rebuilds the registry from nothing: the prepended blocks, the
   drawn block and the appended blocks, in that order, whatever was
   registered before.
   */
  lemma DrawRebuildsRegistry(s: RouteSet, b: Block, run: Runner)
    requires !s.disableClearAndFinalize
    ensures Draw(s, b, run).named == Replay(Empty(), s.prependBlocks + [b] + s.appendBlocks, run)
  {
    var c := Clear(s, run);
    var e := EvalBlock(c, b, run);
    assert !e.finalized;
    RunAllReplays(e, s.appendBlocks, run);
    ReplayConcat(Empty(), s.prependBlocks, [b], run);
    ReplayConcat(Empty(), s.prependBlocks + [b], s.appendBlocks, run);
  }

  /** Drawing the same block twice leaves the registry as drawing it once. */
  lemma RedrawIsStable(s: RouteSet, b: Block, run: Runner)
    requires !s.disableClearAndFinalize
    ensures Draw(Draw(s, b, run), b, run).named == Draw(s, b, run).named
  {
    DrawRebuildsRegistry(s, b, run);
    DrawRebuildsRegistry(Draw(s, b, run), b, run);
  }
}

=== FILE: seqs.dfy ===
/**
 The Array operations the route set applies to lists of segment keys:
 difference (`a - b`, which drops every occurrence), `uniq`, and the
 properties they keep.
 */
module Seqs {
  import opened RubyValues

  ghost predicate NoDup(xs: seq<Key>) {
    forall i, j :: 0 <= i < j < |xs| ==> xs[i] != xs[j]
  }

  /** `xs` can be obtained from `ys` by deleting elements. */
  ghost predicate IsSubsequence(xs: seq<Key>, ys: seq<Key>)
    decreases |ys|
  {
    if |xs| == 0 then true
    else if |ys| == 0 then false
    else if xs[0] == ys[0] then IsSubsequence(xs[1..], ys[1..])
    else IsSubsequence(xs, ys[1..])
  }

  lemma {:induction false} SubsequenceOfTail(xs: seq<Key>, y: Key, ys: seq<Key>)
    requires IsSubsequence(xs, ys)
    ensures IsSubsequence(xs, [y] + ys)
    decreases 2 * |ys| + 1
  {
    if |xs| == 0 {
    } else if xs[0] == y {
      assert ([y] + ys)[1..] == ys;
      SubsequenceDropHead(xs, ys);
    } else {
      assert ([y] + ys)[1..] == ys;
    }
  }

  lemma {:induction false} SubsequenceDropHead(xs: seq<Key>, ys: seq<Key>)
    requires |xs| > 0
    requires IsSubsequence(xs, ys)
    ensures IsSubsequence(xs[1..], ys)
    decreases 2 * |ys|
  {
    if xs[0] == ys[0] {
      SubsequenceOfTail(xs[1..], ys[0], ys[1..]);
      assert [ys[0]] + ys[1..] == ys;
    } else {
      SubsequenceDropHead(xs, ys[1..]);
      SubsequenceOfTail(xs[1..], ys[0], ys[1..]);
      assert [ys[0]] + ys[1..] == ys;
    }
  }

  /** Array difference `xs - drop`: keeps, in order, the elements not in `drop`. */
  function Without(xs: seq<Key>, drop: set<Key>): (r: seq<Key>)
    ensures forall x :: x in r <==> x in xs && x !in drop
    ensures |r| <= |xs|
    ensures IsSubsequence(r, xs)
    ensures NoDup(xs) ==> NoDup(r)
  {
    if |xs| == 0 then []
    else
      var rest := Without(xs[1..], drop);
      if xs[0] in drop then
        SubsequenceOfTail(rest, xs[0], xs[1..]);
        assert [xs[0]] + xs[1..] == xs;
        rest
      else
        assert ([xs[0]] + rest)[1..] == rest;
        [xs[0]] + rest
  }

  /**
   Array difference keeps every element not dropped as often as it occurs,
   and no occurrence of a dropped one.
   */
  lemma {:induction false} WithoutCounts(xs: seq<Key>, drop: set<Key>)
    ensures forall x :: multiset(Without(xs, drop))[x] == if x in drop then 0 else multiset(xs)[x]
    decreases |xs|
  {
    if |xs| > 0 {
      WithoutCounts(xs[1..], drop);
      assert [xs[0]] + xs[1..] == xs;
      assert multiset(xs) == multiset{xs[0]} + multiset(xs[1..]);
      if xs[0] !in drop {
        assert multiset([xs[0]] + Without(xs[1..], drop)) == multiset{xs[0]} + multiset(Without(xs[1..], drop));
      }
    }
  }

  /** `xs.uniq`: the first occurrence of each element, in order. */
  function Uniq(xs: seq<Key>): (r: seq<Key>)
    decreases |xs|
    ensures NoDup(r)
    ensures forall x :: x in r <==> x in xs
    ensures IsSubsequence(r, xs)
    ensures |xs| > 0 ==> |r| > 0 && r[0] == xs[0]
  {
    if |xs| == 0 then []
    else
      var rest := Uniq(Without(xs[1..], {xs[0]}));
      SubsequenceTransitive(rest, Without(xs[1..], {xs[0]}), xs[1..]);
      assert ([xs[0]] + rest)[1..] == rest;
      [xs[0]] + rest
  }

  /**
   The scan Ruby's `uniq` performs: left to right, an element is kept when
   it is not among those `seen` so far.
   */
  function KeepFirst(xs: seq<Key>, seen: set<Key>): seq<Key>
    decreases |xs|
  {
    if |xs| == 0 then []
    else if xs[0] in seen then KeepFirst(xs[1..], seen)
    else [xs[0]] + KeepFirst(xs[1..], seen + {xs[0]})
  }

  /** Dropping two sets one after the other drops their union. */
  lemma {:induction false} WithoutTwice(xs: seq<Key>, a: set<Key>, b: set<Key>)
    ensures Without(Without(xs, a), b) == Without(xs, a + b)
    decreases |xs|
  {
    if |xs| > 0 {
      WithoutTwice(xs[1..], a, b);
      if xs[0] !in a {
        assert ([xs[0]] + Without(xs[1..], a))[1..] == Without(xs[1..], a);
      }
    }
  }

  /** `Uniq` of what is left after dropping `seen` is the scan started with `seen`. */
  lemma {:induction false} UniqWithoutIsKeepFirst(xs: seq<Key>, seen: set<Key>)
    ensures Uniq(Without(xs, seen)) == KeepFirst(xs, seen)
    decreases |xs|
  {
    if |xs| > 0 {
      var x := xs[0];
      if x in seen {
        UniqWithoutIsKeepFirst(xs[1..], seen);
      } else {
        var w := Without(xs, seen);
        assert w == [x] + Without(xs[1..], seen);
        assert w[0] == x && w[1..] == Without(xs[1..], seen);
        WithoutTwice(xs[1..], seen, {x});
        UniqWithoutIsKeepFirst(xs[1..], seen + {x});
      }
    }
  }

  /** `uniq` keeps each element at its first occurrence, in the order of first occurrences. */
  lemma UniqKeepsFirstOccurrences(xs: seq<Key>)
    ensures Uniq(xs) == KeepFirst(xs, {})
  {
    UniqWithoutIsKeepFirst(xs, {});
    WithoutNothing(xs);
  }

  lemma {:induction false} WithoutNothing(xs: seq<Key>)
    ensures Without(xs, {}) == xs
    decreases |xs|
  {
    if |xs| > 0 {
      WithoutNothing(xs[1..]);
      assert [xs[0]] + xs[1..] == xs;
    }
  }

  lemma {:induction false} SubsequenceTransitive(xs: seq<Key>, ys: seq<Key>, zs: seq<Key>)
    requires IsSubsequence(xs, ys)
    requires IsSubsequence(ys, zs)
    ensures IsSubsequence(xs, zs)
    decreases |zs|
  {
    if |xs| == 0 {
    } else if |zs| == 0 {
    } else if ys[0] == zs[0] {
      if xs[0] == ys[0] {
        SubsequenceTransitive(xs[1..], ys[1..], zs[1..]);
      } else {
        SubsequenceTransitive(xs, ys[1..], zs[1..]);
      }
    } else {
      SubsequenceTransitive(xs, ys, zs[1..]);
      if xs[0] == zs[0] {
        SubsequenceDropHead(xs, zs[1..]);
      }
    }
  }

  lemma {:induction false} SubsequenceReflexive(xs: seq<Key>)
    ensures IsSubsequence(xs, xs)
    decreases |xs|
  {
    if |xs| > 0 {
      SubsequenceReflexive(xs[1..]);
    }
  }
}

=== FILE: strings.dfy ===
/**
 The String operations the route set uses on controller paths
 (`split('/')`, `join('/')`, `count('/')`) and on key names (Symbol
 ordering, for `sort`).
 */
module Strings {
  const Slash: char := '/'

  ghost predicate SlashFree(s: string) {
    Slash !in s
  }

  /** Every field between separators, including empty ones; never empty. */
  function Fields(s: string, sep: char): (r: seq<string>)
    ensures |r| >= 1
    ensures |r| == Count(s, sep) + 1
    ensures forall i :: 0 <= i < |r| ==> sep !in r[i]
  {
    if |s| == 0 then [""]
    else
      var rest := Fields(s[1..], sep);
      if s[0] == sep then [""] + rest
      else [[s[0]] + rest[0]] + rest[1..]
  }

  /** Ruby's `split` drops trailing empty fields. */
  function DropTrailingEmpty(xs: seq<string>): (r: seq<string>)
    ensures r <= xs
    ensures |r| > 0 ==> r[|r| - 1] != ""
    ensures forall i :: |r| <= i < |xs| ==> xs[i] == ""
  {
    if |xs| > 0 && xs[|xs| - 1] == "" then DropTrailingEmpty(xs[..|xs| - 1])
    else xs
  }

  /** `s.split('/')` */
  function Split(s: string): (r: seq<string>)
    ensures forall i :: 0 <= i < |r| ==> SlashFree(r[i])
    ensures |r| <= Count(s, Slash) + 1
  {
    DropTrailingEmpty(Fields(s, Slash))
  }

  /** `parts.join('/')` */
  function Join(parts: seq<string>): string {
    if |parts| == 0 then ""
    else if |parts| == 1 then parts[0]
    else parts[0] + [Slash] + Join(parts[1..])
  }

  /** `s.count(c)` for a single character. */
  function Count(s: string, c: char): nat {
    if |s| == 0 then 0
    else (if s[0] == c then 1 else 0) + Count(s[1..], c)
  }

  lemma {:induction false} FieldsPrepend(x: string, rest: string)
    requires SlashFree(x)
    ensures Fields(x + [Slash] + rest, Slash) == [x] + Fields(rest, Slash)
    decreases |x|
  {
    if |x| == 0 {
      assert x + [Slash] + rest == [Slash] + rest;
      assert ([Slash] + rest)[1..] == rest;
    } else {
      var s := x + [Slash] + rest;
      assert s[1..] == x[1..] + [Slash] + rest;
      FieldsPrepend(x[1..], rest);
      assert [x[0]] + x[1..] == x;
    }
  }

  /** A string without the separator is a single field. */
  lemma {:induction false} FieldsWithoutSeparator(s: string, sep: char)
    requires sep !in s
    ensures Fields(s, sep) == [s]
    decreases |s|
  {
    if |s| > 0 {
      FieldsWithoutSeparator(s[1..], sep);
      assert [s[0]] + s[1..] == s;
    }
  }

  /** Splitting undoes joining, when no part holds a slash and the last part is not empty. */
  lemma {:induction false} FieldsJoin(parts: seq<string>)
    requires |parts| >= 1
    requires forall i :: 0 <= i < |parts| ==> SlashFree(parts[i])
    ensures Fields(Join(parts), Slash) == parts
    decreases |parts|
  {
    if |parts| == 1 {
      FieldsWithoutSeparator(parts[0], Slash);
    } else {
      FieldsJoin(parts[1..]);
      FieldsPrepend(parts[0], Join(parts[1..]));
      assert [parts[0]] + parts[1..] == parts;
    }
  }

  lemma {:induction false} SplitJoin(parts: seq<string>)
    requires forall i :: 0 <= i < |parts| ==> SlashFree(parts[i])
    requires |parts| > 0 ==> parts[|parts| - 1] != ""
    ensures Split(Join(parts)) == parts
  {
    if |parts| == 0 {
    } else {
      FieldsJoin(parts);
    }
  }

  /** Strict lexicographic order on names, which is how Symbols sort. */
  predicate Less(a: string, b: string) {
    if |b| == 0 then false
    else if |a| == 0 then true
    else if a[0] != b[0] then a[0] < b[0]
    else Less(a[1..], b[1..])
  }

  predicate LessEq(a: string, b: string) {
    a == b || Less(a, b)
  }

  lemma {:induction false} LessTotal(a: string, b: string)
    ensures a == b || Less(a, b) || Less(b, a)
  {
    if |a| > 0 && |b| > 0 && a[0] == b[0] {
      LessTotal(a[1..], b[1..]);
      if a[1..] == b[1..] {
        assert a == [a[0]] + a[1..];
        assert b == [b[0]] + b[1..];
      }
    }
  }

  ghost predicate Sorted(xs: seq<string>) {
    forall i :: 0 < i < |xs| ==> LessEq(xs[i - 1], xs[i])
  }

  function Insert(x: string, xs: seq<string>): (r: seq<string>)
    requires Sorted(xs)
    ensures Sorted(r)
    ensures multiset(r) == multiset(xs) + multiset{x}
    ensures |r| > 0 && (r[0] == x || (|xs| > 0 && r[0] == xs[0]))
  {
    if |xs| == 0 then [x]
    else if LessEq(x, xs[0]) then [x] + xs
    else
      LessTotal(x, xs[0]);
      var rest := Insert(x, xs[1..]);
      assert xs == [xs[0]] + xs[1..];
      [xs[0]] + rest
  }

  /** `keys.sort`, by insertion. */
  function Sort(xs: seq<string>): (r: seq<string>)
    ensures Sorted(r)
    ensures multiset(r) == multiset(xs)
  {
    if |xs| == 0 then []
    else
      assert xs == [xs[0]] + xs[1..];
      Insert(xs[0], Sort(xs[1..]))
  }
}

=== FILE: url_for.dfy ===
/**
 `RouteSet#url_for`: how the options of a URL request are split between
 the URL strategy (host, credentials, script name) and the path generator
 (everything else), before and after the path is generated. The path
 formatter and the URL strategy are not part of this model: the formatter
 is a function parameter, and the result is the hash handed to the
 strategy.
 */
module UrlFor {
  import opened RubyValues
  import opened Generator
  import opened NamedRoutes

  const User: Key := "user"
  const Password: Key := "password"
  const ScriptName: Key := "script_name"
  const OriginalScriptName: Key := "original_script_name"
  const PathKey: Key := "path"
  const ParamsKey: Key := "params"

  /** `RESERVED_OPTIONS`: options the path generator never sees. */
  const ReservedOptions: set<Key> := {"host", "protocol", "port", "subdomain", "domain", "tld_length",
    "trailing_slash", "anchor", "params", "only_path", "script_name", "original_script_name"}

  /**
   The options hash of `url_for`. Its two hash-valued entries sit beside
   the scalar ones: `:_recall` (the recalled path parameters) and `:params`
   (extra query parameters).
   */
  datatype UrlOptions = UrlOptions(entries: map<Key, Value>, recall: Option<map<Key, Value>>, params: Option<map<Key, Value>>)

  /** `default_url_options.merge options`: the given options win. */
  function Merge(defaults: UrlOptions, given: UrlOptions): (r: UrlOptions)
    ensures forall k :: k in given.entries ==> k in r.entries && r.entries[k] == given.entries[k]
    ensures forall k :: k !in given.entries ==> SameAt(r.entries, defaults.entries, k)
    ensures r.recall == (if given.recall.Some? then given.recall else defaults.recall)
    ensures r.params == (if given.params.Some? then given.params else defaults.params)
  {
    UrlOptions(defaults.entries + given.entries,
      if given.recall.Some? then given.recall else defaults.recall,
      if given.params.Some? then given.params else defaults.params)
  }

  /**
   `find_script_name(options)`: remove `:script_name` from the options and
   use it when it is set, falling back to the relative URL root and then to
   the empty String.
   */
  function FindScriptName(entries: map<Key, Value>, relativeUrlRoot: Option<string>): (r: (Value, map<Key, Value>))
    ensures r.1 == entries - {ScriptName}
    ensures Truthy(r.0)
    ensures Truthy(Lookup(entries, ScriptName)) ==> r.0 == entries[ScriptName]
    ensures !Truthy(Lookup(entries, ScriptName)) && relativeUrlRoot.Some? ==> r.0 == Str(relativeUrlRoot.value)
    ensures !Truthy(Lookup(entries, ScriptName)) && relativeUrlRoot.None? ==> r.0 == Str("")
  {
    var found := Lookup(entries, ScriptName);
    (if Truthy(found) then found else Str(relativeUrlRoot.GetOr("")), entries - {ScriptName})
  }

  /** `a + b` for the two script names: only a String added to a String succeeds. */
  function Concat(a: Value, b: Value): (r: Result<Value>)
    ensures r.Ok? <==> a.Str? && b.Str?
    ensures r.Ok? ==> r.value == Str(a.s + b.s)
  {
    match a
    case Str(x) => if b.Str? then Ok(Str(x + b.s)) else Err(TypeError("no implicit conversion into String"))
    case _ => Err(NoMethodError("+"))
  }

  /**
   The options of `url_for` after the merge and the removals that precede
   generation: the hash passed on, the hash given to the path generator,
   the recall, the script name and the credentials.
   */
  datatype UrlPlan = UrlPlan(
    options: map<Key, Value>,
    pathOptions: map<Key, Value>,
    recall: map<Key, Value>,
    scriptName: Value,
    user: Value,
    password: Value,
    params: Option<map<Key, Value>>)

  /** Both credentials are given, so both leave the options hash. */
  predicate HasCredentials(entries: map<Key, Value>) {
    Truthy(Lookup(entries, User)) && Truthy(Lookup(entries, Password))
  }

  datatype Credentials = Credentials(user: Value, password: Value, rest: map<Key, Value>)

  /** `options.delete :user` and `:password`, only when both are set. */
  function TakeCredentials(entries: map<Key, Value>): (r: Credentials)
    ensures HasCredentials(entries) ==>
      r.user == entries[User] && r.password == entries[Password] && r.rest == entries - {User, Password}
    ensures !HasCredentials(entries) ==> r.user == Nil && r.password == Nil && r.rest == entries
  {
    if HasCredentials(entries) then Credentials(entries[User], entries[Password], entries - {User, Password})
    else Credentials(Nil, Nil, entries)
  }

  /**
   Remove both script-name options; an original script name, when set, is
   prepended to the one `find_script_name` finds.
   */
  function ResolveScriptName(entries: map<Key, Value>, relativeUrlRoot: Option<string>): (r: Result<(Value, map<Key, Value>)>)
    ensures var original := Lookup(entries, OriginalScriptName);
      var found := FindScriptName(entries, relativeUrlRoot).0;
      && (r.Ok? <==> !Truthy(original) || (original.Str? && found.Str?))
      && (r.Ok? && Truthy(original) ==> r.value.0 == Str(original.s + found.s))
      && (r.Ok? && !Truthy(original) ==> r.value.0 == found)
    ensures r.Ok? ==> r.value.1 == entries - {ScriptName, OriginalScriptName}
    ensures r.Err? ==> r.error.TypeError? || r.error.NoMethodError?
  {
    var original := Lookup(entries, OriginalScriptName);
    var (found, rest) := FindScriptName(entries - {OriginalScriptName}, relativeUrlRoot);
    assert found == FindScriptName(entries, relativeUrlRoot).0;
    assert rest == entries - {ScriptName, OriginalScriptName};
    var scriptName :- if Truthy(original) then Concat(original, found) else Ok(found);
    Ok((scriptName, rest))
  }

  /** `path_options`: the options without the reserved ones. */
  function PathOptions(options: map<Key, Value>): (r: map<Key, Value>)
    ensures forall k :: k in ReservedOptions ==> k !in r
    ensures forall k :: k !in ReservedOptions ==> SameAt(r, options, k)
  {
    options - ReservedOptions
  }

  /** `url_for` up to the call of `generate`. */
  function PlanUrl(defaults: UrlOptions, given: UrlOptions, relativeUrlRoot: Option<string>): (r: Result<UrlPlan>)
    ensures r.Ok? ==> forall k :: k in ReservedOptions ==> k !in r.value.pathOptions
    ensures r.Ok? ==> ScriptName !in r.value.options && OriginalScriptName !in r.value.options
    ensures r.Err? ==> r.error.TypeError? || r.error.NoMethodError?
  {
    var merged := Merge(defaults, given);
    var credentials := TakeCredentials(merged.entries);
    var resolved :- ResolveScriptName(credentials.rest, relativeUrlRoot);
    Ok(UrlPlan(resolved.1, PathOptions(resolved.1), merged.recall.GetOr(map[]), resolved.0,
      credentials.user, credentials.password, merged.params))
  }

  /** The steps of `PlanUrl`, in terms of the merged options. */
  lemma PlanUrlSteps(defaults: UrlOptions, given: UrlOptions, relativeUrlRoot: Option<string>)
    ensures var merged := Merge(defaults, given);
      var credentials := TakeCredentials(merged.entries);
      var resolved := ResolveScriptName(credentials.rest, relativeUrlRoot);
      var r := PlanUrl(defaults, given, relativeUrlRoot);
      && (r.Ok? <==> resolved.Ok?)
      && (r.Ok? ==> && r.value.scriptName == resolved.value.0
                    && r.value.pathOptions == PathOptions(resolved.value.1)
                    && r.value.user == credentials.user && r.value.password == credentials.password
                    && r.value.recall == merged.recall.GetOr(map[]))
  {
  }

  /**
   The script name `url_for` hands on: the one found, after an original
   script name when one is set; it fails exactly when those two cannot be
   added.
   */
  lemma PlanUrlScriptName(defaults: UrlOptions, given: UrlOptions, relativeUrlRoot: Option<string>)
    ensures var merged := Merge(defaults, given).entries;
      var r := PlanUrl(defaults, given, relativeUrlRoot);
      var original := Lookup(merged, OriginalScriptName);
      var found := FindScriptName(merged, relativeUrlRoot).0;
      && (r.Ok? <==> !Truthy(original) || (original.Str? && found.Str?))
      && (r.Ok? && Truthy(original) ==> r.value.scriptName == Str(original.s + found.s))
      && (r.Ok? && !Truthy(original) ==> r.value.scriptName == found)
  {
    var merged := Merge(defaults, given).entries;
    var credentials := TakeCredentials(merged);
    PlanUrlSteps(defaults, given, relativeUrlRoot);
    assert Lookup(credentials.rest, OriginalScriptName) == Lookup(merged, OriginalScriptName);
    assert Lookup(credentials.rest, ScriptName) == Lookup(merged, ScriptName);
    assert FindScriptName(credentials.rest, relativeUrlRoot).0 == FindScriptName(merged, relativeUrlRoot).0;
  }

  /**
   Every unreserved option other than the credentials reaches the path
   generator unchanged.
   */
  lemma PlanUrlSplitsOptions(defaults: UrlOptions, given: UrlOptions, relativeUrlRoot: Option<string>)
    ensures var merged := Merge(defaults, given).entries;
      var r := PlanUrl(defaults, given, relativeUrlRoot);
      r.Ok? ==> forall k :: k !in ReservedOptions && k != User && k != Password ==>
        SameAt(r.value.pathOptions, merged, k)
  {
    var merged := Merge(defaults, given).entries;
    var credentials := TakeCredentials(merged);
    var resolved := ResolveScriptName(credentials.rest, relativeUrlRoot);
    PlanUrlSteps(defaults, given, relativeUrlRoot);
    var r := PlanUrl(defaults, given, relativeUrlRoot);
    if r.Ok? {
      var rest := resolved.value.1;
      assert rest == credentials.rest - {ScriptName, OriginalScriptName};
      forall k | k !in ReservedOptions && k != User && k != Password
        ensures SameAt(r.value.pathOptions, merged, k)
      {
        assert SameAt(r.value.pathOptions, rest, k);
        assert SameAt(credentials.rest, merged, k);
      }
    }
  }

  /** When both credentials are set, both leave the options and are handed on. */
  lemma PlanUrlTakesCredentials(defaults: UrlOptions, given: UrlOptions, relativeUrlRoot: Option<string>)
    requires HasCredentials(Merge(defaults, given).entries)
    ensures var merged := Merge(defaults, given).entries;
      var r := PlanUrl(defaults, given, relativeUrlRoot);
      r.Ok? ==>
        && r.value.user == merged[User] && r.value.password == merged[Password]
        && User !in r.value.pathOptions && Password !in r.value.pathOptions
  {
    var merged := Merge(defaults, given).entries;
    var credentials := TakeCredentials(merged);
    var resolved := ResolveScriptName(credentials.rest, relativeUrlRoot);
    PlanUrlSteps(defaults, given, relativeUrlRoot);
    if resolved.Ok? {
      assert User !in resolved.value.1 && Password !in resolved.value.1;
    }
  }

  /**
   Otherwise both stay among the options, so the path generator sees them,
   and the strategy is told there are no credentials.
   */
  lemma PlanUrlKeepsLoneCredential(defaults: UrlOptions, given: UrlOptions, relativeUrlRoot: Option<string>)
    requires !HasCredentials(Merge(defaults, given).entries)
    ensures var merged := Merge(defaults, given).entries;
      var r := PlanUrl(defaults, given, relativeUrlRoot);
      r.Ok? ==>
        && r.value.user == Nil && r.value.password == Nil
        && SameAt(r.value.pathOptions, merged, User) && SameAt(r.value.pathOptions, merged, Password)
  {
    var merged := Merge(defaults, given).entries;
    var resolved := ResolveScriptName(merged, relativeUrlRoot);
    PlanUrlSteps(defaults, given, relativeUrlRoot);
    if resolved.Ok? {
      var rest := resolved.value.1;
      assert SameAt(rest, merged, User) && SameAt(rest, merged, Password);
      assert SameAt(PathOptions(rest), rest, User) && SameAt(PathOptions(rest), rest, Password);
    }
  }

  /** The recall comes from the given options, else from the defaults, else it is empty. */
  lemma PlanUrlRecall(defaults: UrlOptions, given: UrlOptions, relativeUrlRoot: Option<string>)
    ensures var r := PlanUrl(defaults, given, relativeUrlRoot);
      r.Ok? ==> r.value.recall == (if given.recall.Some? then given.recall.value else defaults.recall.GetOr(map[]))
  {
    PlanUrlSteps(defaults, given, relativeUrlRoot);
  }

  /** What `url_for` hands to the URL strategy: its options hash, with `:params` held apart. */
  datatype StrategyOptions = StrategyOptions(entries: map<Key, Value>, params: map<Key, Value>)

  /**
   The path formatter: from the route name and the normalised options and
   recall, a path and the parameters it did not use, or a generation error.
   */
  type Formatter = (Option<Key>, map<Key, Value>, map<Key, Value>) -> Result<(string, map<Key, Value>)>

  /**
   What the path formatter may be handed for the options and recall given
   to `generate`: the recall names an action, the options carry no 'index'
   action, a set controller is a String, and nothing but the controller,
   action and id of the options and the action of the recall has changed.
   */
  ghost predicate FormatterInput(options: map<Key, Value>, recall: map<Key, Value>,
                                 formatterOptions: map<Key, Value>, formatterRecall: map<Key, Value>) {
    && Action in formatterRecall && Truthy(formatterRecall[Action])
    && Lookup(formatterOptions, Action) != Index
    && (Truthy(Lookup(formatterOptions, Controller)) ==> formatterOptions[Controller].Str?)
    && formatterOptions - {Controller, Action, Id} == options - {Controller, Action, Id}
    && formatterRecall - {Action} == recall - {Action}
  }

  /**
   `generate(route_name, options, recall)`: either the constructor's
   normalisation raises, or the result is the formatter's answer for a
   normalised pair of hashes.
   */
  function Generate(routeName: Option<Key>, options: map<Key, Value>, recall: map<Key, Value>,
                    named: NamedRouteCollection, format: Formatter): (r: Result<(string, map<Key, Value>)>)
    ensures Normalize(routeName, options, recall, named).Err? ==> r.Err? && r.error.NoMethodError?
    ensures Normalize(routeName, options, recall, named).Ok? ==>
      exists o, rc :: FormatterInput(options, recall, o, rc) && r == format(routeName, o, rc)
  {
    var n := Normalize(routeName, options, recall, named);
    if n.Err? then Err(n.error)
    else
      assert FormatterInput(options, recall, n.value.options, n.value.recall);
      format(routeName, n.value.options, n.value.recall)
  }

  /** The keys `url_for` sets on its options hash just before the strategy call. */
  const HandedOverKeys: set<Key> := {PathKey, ScriptName, User, Password}

  /**
   `options[:path] = path` and the assignments after it: the four keys are
   set, `:params` is held apart, and every other option is kept.
   */
  function HandOverEntries(options: map<Key, Value>, path: string, scriptName: Value, user: Value, password: Value): (r: map<Key, Value>)
    ensures PathKey in r && r[PathKey] == Str(path)
    ensures ScriptName in r && r[ScriptName] == scriptName
    ensures User in r && r[User] == user
    ensures Password in r && r[Password] == password
    ensures ParamsKey !in r
    ensures forall k :: k in options && k !in HandedOverKeys && k != ParamsKey ==> k in r && r[k] == options[k]
    ensures forall k :: k in r ==> k in options || k in HandedOverKeys
  {
    (options - {ParamsKey})[PathKey := Str(path)][ScriptName := scriptName][User := user][Password := password]
  }

  /** `params.merge! options[:params]`: explicit params win over the formatter's unused ones. */
  function MergeParams(generated: map<Key, Value>, explicit: Option<map<Key, Value>>): (r: map<Key, Value>)
    ensures explicit.Some? ==> forall k :: k in explicit.value ==> k in r && r[k] == explicit.value[k]
    ensures forall k :: k in generated && (explicit.None? || k !in explicit.value) ==> k in r && r[k] == generated[k]
    ensures forall k :: k in r ==> k in generated || (explicit.Some? && k in explicit.value)
  {
    if explicit.Some? then generated + explicit.value else generated
  }

  /** `url_for(options, route_name, url_strategy)`, up to the strategy call. */
  function UrlFor(defaults: UrlOptions, given: UrlOptions, routeName: Option<Key>, relativeUrlRoot: Option<string>,
                  named: NamedRouteCollection, format: Formatter): (r: Result<StrategyOptions>)
    ensures var plan := PlanUrl(defaults, given, relativeUrlRoot);
      plan.Err? ==> r == Err(plan.error)
    ensures var plan := PlanUrl(defaults, given, relativeUrlRoot);
      plan.Ok? && Generate(routeName, plan.value.pathOptions, plan.value.recall, named, format).Err? ==>
        r == Err(Generate(routeName, plan.value.pathOptions, plan.value.recall, named, format).error)
    ensures r.Ok? ==> PathKey in r.value.entries && r.value.entries[PathKey].Str?
    ensures r.Ok? ==> ScriptName in r.value.entries && User in r.value.entries && Password in r.value.entries
    ensures r.Ok? ==> ParamsKey !in r.value.entries
  {
    var plan :- PlanUrl(defaults, given, relativeUrlRoot);
    var generated :- Generate(routeName, plan.pathOptions, plan.recall, named, format);
    Ok(StrategyOptions(HandOverEntries(plan.options, generated.0, plan.scriptName, plan.user, plan.password),
                       MergeParams(generated.1, plan.params)))
  }

  /**
   On success the strategy receives the generated path, the planned script
   name and credentials, every other remaining option unchanged, and the
   unused parameters of the formatter overridden by the explicit `:params`.
   */
  lemma UrlForHandsOver(defaults: UrlOptions, given: UrlOptions, routeName: Option<Key>, relativeUrlRoot: Option<string>,
                        named: NamedRouteCollection, format: Formatter)
    requires PlanUrl(defaults, given, relativeUrlRoot).Ok?
    requires var plan := PlanUrl(defaults, given, relativeUrlRoot).value;
      Generate(routeName, plan.pathOptions, plan.recall, named, format).Ok?
    ensures var plan := PlanUrl(defaults, given, relativeUrlRoot).value;
      var g := Generate(routeName, plan.pathOptions, plan.recall, named, format).value;
      var r := UrlFor(defaults, given, routeName, relativeUrlRoot, named, format);
      && r.Ok?
      && r.value.entries[PathKey] == Str(g.0)
      && r.value.entries[ScriptName] == plan.scriptName
      && r.value.entries[User] == plan.user
      && r.value.entries[Password] == plan.password
      && (forall k :: k in plan.options && k !in HandedOverKeys && k != ParamsKey ==>
            k in r.value.entries && r.value.entries[k] == plan.options[k])
      && (forall k :: k in r.value.entries ==> k in plan.options || k in HandedOverKeys)
      && (forall k :: k in g.1 && (plan.params.None? || k !in plan.params.value) ==>
            k in r.value.params && r.value.params[k] == g.1[k])
      && (plan.params.Some? ==> forall k :: k in plan.params.value ==>
            k in r.value.params && r.value.params[k] == plan.params.value[k])
  {
    var plan := PlanUrl(defaults, given, relativeUrlRoot).value;
    var g := Generate(routeName, plan.pathOptions, plan.recall, named, format).value;
    assert UrlFor(defaults, given, routeName, relativeUrlRoot, named, format)
      == Ok(StrategyOptions(HandOverEntries(plan.options, g.0, plan.scriptName, plan.user, plan.password),
                            MergeParams(g.1, plan.params)));
  }

  /** A key outside the frame is in one map exactly when it is in the other. */
  lemma OutsideFrame(a: map<Key, Value>, b: map<Key, Value>, frame: set<Key>, k: Key)
    requires a - frame == b - frame
    requires k !in frame
    ensures k in a <==> k in b
  {
    assert k in a <==> k in a - frame;
    assert k in b <==> k in b - frame;
  }

  /** No reserved option ever reaches the path formatter. */
  lemma ReservedOptionsNeverReachFormatter(defaults: UrlOptions, given: UrlOptions, routeName: Option<Key>,
                                           relativeUrlRoot: Option<string>, named: NamedRouteCollection)
    requires PlanUrl(defaults, given, relativeUrlRoot).Ok?
    ensures var plan := PlanUrl(defaults, given, relativeUrlRoot).value;
      var n := Normalize(routeName, plan.pathOptions, plan.recall, named);
      n.Ok? ==> forall k :: k in ReservedOptions ==> k !in n.value.options
  {
    var plan := PlanUrl(defaults, given, relativeUrlRoot).value;
    var n := Normalize(routeName, plan.pathOptions, plan.recall, named);
    if n.Ok? {
      forall k | k in ReservedOptions ensures k !in n.value.options {
        OutsideFrame(n.value.options, plan.pathOptions, {Controller, Action, Id}, k);
      }
    }
  }

  /**
   A user without a password is not a credential: it stays in the path
   options, so the generator sees it as a path parameter, and the strategy
   is told there is no user.
   */
  lemma LoneUserIsAPathParameter(defaults: UrlOptions, given: UrlOptions, relativeUrlRoot: Option<string>, user: string)
    requires given.entries == map[User := Str(user)]
    requires defaults.entries == map[]
    ensures PlanUrl(defaults, given, relativeUrlRoot).Ok?
    ensures var plan := PlanUrl(defaults, given, relativeUrlRoot).value;
      && plan.pathOptions == map[User := Str(user)]
      && plan.user == Nil && plan.password == Nil
  {
    var merged := Merge(defaults, given).entries;
    assert merged == map[User := Str(user)];
    assert !HasCredentials(merged);
    assert TakeCredentials(merged).rest == merged;
    assert merged - {ScriptName, OriginalScriptName} == merged;
    assert PathOptions(merged) == merged;
  }

  /**
   An original script name is prepended to the script name found in the
   options, which replaces the application's relative URL root.
   */
  lemma OriginalScriptNamePrefixes(defaults: UrlOptions, given: UrlOptions, relativeUrlRoot: Option<string>, original: string, script: string)
    requires OriginalScriptName in given.entries && given.entries[OriginalScriptName] == Str(original)
    requires ScriptName in given.entries && given.entries[ScriptName] == Str(script)
    ensures PlanUrl(defaults, given, relativeUrlRoot).Ok?
    ensures PlanUrl(defaults, given, relativeUrlRoot).value.scriptName == Str(original + script)
  {
    var merged := Merge(defaults, given).entries;
    PlanUrlScriptName(defaults, given, relativeUrlRoot);
    assert Lookup(merged, OriginalScriptName) == Str(original);
    assert Lookup(merged, ScriptName) == Str(script);
  }
}

=== FILE: url_helpers.dfy ===
/**
 `NamedRouteCollection::UrlHelper` and `OptimizedUrlHelper`: how a named
 route helper such as `post_path(post, format: 'json')` turns positional
 args into a hash of URL options, and the fast path that formats a route
 straight from its required parts.
 */
module UrlHelpers {
  import opened RubyValues
  import opened Seqs
  import opened Strings
  import opened NamedRoutes

  /** `path_params.size`, not counting a :format segment. */
  function PositionalCapacity(pathParams: seq<Key>): nat {
    if Format in pathParams then |pathParams| - 1 else |pathParams|
  }

  /**
   The segment keys positional args bind to, in order: keys given in the
   trailing options hash are dropped and, when there are fewer args than
   non-format keys, so are keys the controller options or the result hash
   already supply.
   */
  function RemainingKeys(controllerKeys: set<Key>, resultKeys: set<Key>, innerKeys: set<Key>, argCount: nat, pathParams: seq<Key>): (keys: seq<Key>)
    ensures forall k :: k in keys <==>
      && k in pathParams
      && k !in innerKeys
      && (argCount < PositionalCapacity(pathParams) ==> k !in controllerKeys && k !in resultKeys)
    ensures IsSubsequence(keys, pathParams)
    ensures NoDup(pathParams) ==> NoDup(keys)
  {
    SubsequenceReflexive(pathParams);
    var trimmed :=
      if argCount < PositionalCapacity(pathParams) then
        var once := Without(pathParams, controllerKeys);
        var twice := Without(once, resultKeys);
        SubsequenceTransitive(twice, once, pathParams);
        twice
      else pathParams;
    var keys := Without(trimmed, innerKeys);
    SubsequenceTransitive(keys, trimmed, pathParams);
    keys
  }

  /** The keys the first `n` args bind to. */
  function Bound(keys: seq<Key>, n: nat): seq<Key> {
    if n <= |keys| then keys[..n] else keys
  }

  /**
   `args.each_with_index { |arg, index| result[path_params[index]] = arg if path_params[index] }`:
   the i-th arg is stored under the i-th key; args past the last key are dropped.
   */
  function BindPositional(result: map<Key, Value>, keys: seq<Key>, args: seq<Value>): (r: map<Key, Value>)
    decreases |args|
    ensures forall k :: k in r <==> k in result || k in Bound(keys, |args|)
    ensures forall k :: k in result && k !in Bound(keys, |args|) ==> r[k] == result[k]
  {
    if |args| == 0 then result
    else
      var n := |args| - 1;
      var prev := BindPositional(result, keys, args[..n]);
      BoundStep(keys, n);
      if n < |keys| then prev[keys[n] := args[n]] else prev
  }

  lemma BoundStep(keys: seq<Key>, n: nat)
    ensures Bound(keys, n + 1) == if n < |keys| then Bound(keys, n) + [keys[n]] else Bound(keys, n)
  {
    if n < |keys| {
      assert keys[..n + 1] == keys[..n] + [keys[n]];
    }
  }

  /** When no key repeats, the i-th arg ends up stored under the i-th key. */
  lemma {:induction false} BindPositionalBinds(result: map<Key, Value>, keys: seq<Key>, args: seq<Value>, i: nat)
    requires NoDup(keys)
    requires i < |args| && i < |keys|
    ensures var r := BindPositional(result, keys, args);
      keys[i] in r && r[keys[i]] == args[i]
    decreases |args|
  {
    var n := |args| - 1;
    if i < n {
      BindPositionalBinds(result, keys, args[..n], i);
      assert args[..n][i] == args[i];
      if n < |keys| {
        assert keys[i] != keys[n];
      }
    }
  }

  /**
   `handle_positional_args(controller_options, inner_options, args, result, path_params)`
   as a function of its inputs.
   */
  function PositionalArgs(controllerOptions: map<Key, Value>, inner: map<Key, Value>, args: seq<Value>,
                          result: map<Key, Value>, pathParams: seq<Key>): (r: map<Key, Value>)
    ensures forall k :: k in inner ==> k in r && r[k] == inner[k]
    ensures forall k :: k in result ==> k in r
    ensures forall k :: k in r ==> k in result || k in inner || k in pathParams
  {
    if |args| > 0 then
      BindPositional(result, RemainingKeys(controllerOptions.Keys, result.Keys, inner.Keys, |args|, pathParams), args) + inner
    else result + inner
  }

  /**
   What `handle_positional_args` promises: positional args bind in order
   to the remaining segment keys, keys not bound keep their value, and the
   trailing options hash overrides everything.
   */
  lemma PositionalArgsBinding(controllerOptions: map<Key, Value>, inner: map<Key, Value>, args: seq<Value>,
                              result: map<Key, Value>, pathParams: seq<Key>)
    ensures var r := PositionalArgs(controllerOptions, inner, args, result, pathParams);
      forall k :: k in inner ==> k in r && r[k] == inner[k]
    ensures |args| == 0 ==> PositionalArgs(controllerOptions, inner, args, result, pathParams) == result + inner
    ensures |args| > 0 ==>
      var r := PositionalArgs(controllerOptions, inner, args, result, pathParams);
      var keys := RemainingKeys(controllerOptions.Keys, result.Keys, inner.Keys, |args|, pathParams);
      && (forall k :: k in r <==> k in result || k in inner || k in Bound(keys, |args|))
      && (NoDup(pathParams) ==> forall i :: 0 <= i < |args| && i < |keys| ==> keys[i] in r && r[keys[i]] == args[i])
      && (forall k :: k in result && k !in inner && k !in Bound(keys, |args|) ==> r[k] == result[k])
  {
    if |args| > 0 {
      var keys := RemainingKeys(controllerOptions.Keys, result.Keys, inner.Keys, |args|, pathParams);
      var bound := BindPositional(result, keys, args);
      assert PositionalArgs(controllerOptions, inner, args, result, pathParams) == bound + inner;
      if NoDup(pathParams) {
        forall i | 0 <= i < |args| && i < |keys|
          ensures keys[i] in bound && bound[keys[i]] == args[i]
        {
          BindPositionalBinds(result, keys, args, i);
        }
      }
      assert forall i :: 0 <= i < |args| && i < |keys| ==> keys[i] !in inner;
    }
  }

  /**
   `handle_positional_args`, step by step as the source does it: trim the
   key list, then store the args one at a time, then merge the trailing
   options hash.
   */
  method HandlePositionalArgs(controllerOptions: map<Key, Value>, inner: map<Key, Value>, args: seq<Value>,
                              result: map<Key, Value>, pathParams: seq<Key>) returns (r: map<Key, Value>)
    ensures forall k :: k in inner ==> k in r && r[k] == inner[k]
    ensures |args| == 0 ==> r == result + inner
    ensures |args| > 0 ==>
      var keys := RemainingKeys(controllerOptions.Keys, result.Keys, inner.Keys, |args|, pathParams);
      && (forall k :: k in r <==> k in result || k in inner || k in Bound(keys, |args|))
      && (NoDup(pathParams) ==> forall i :: 0 <= i < |args| && i < |keys| ==> keys[i] in r && r[keys[i]] == args[i])
      && (forall k :: k in result && k !in inner && k !in Bound(keys, |args|) ==> r[k] == result[k])
  {
    r := result;
    if |args| > 0 {
      var params := TrimPathParams(controllerOptions, inner, |args|, result, pathParams);
      r := StoreArgs(result, params, args);
    }
    r := r + inner;
  }

  /** The `each_with_index` loop of `handle_positional_args`. */
  method StoreArgs(result: map<Key, Value>, params: seq<Key>, args: seq<Value>) returns (r: map<Key, Value>)
    ensures forall k :: k in r <==> k in result || k in Bound(params, |args|)
    ensures forall k :: k in result && k !in Bound(params, |args|) ==> r[k] == result[k]
    ensures NoDup(params) ==> forall i :: 0 <= i < |args| && i < |params| ==> params[i] in r && r[params[i]] == args[i]
  {
    r := result;
    var i := 0;
    while i < |args|
      invariant 0 <= i <= |args|
      invariant forall k :: k in r <==> k in result || k in Bound(params, i)
      invariant forall k :: k in result && k !in Bound(params, i) ==> r[k] == result[k]
      invariant NoDup(params) ==> forall j :: 0 <= j < i && j < |params| ==> params[j] in r && r[params[j]] == args[j]
    {
      BoundStep(params, i);
      if i < |params| {
        assert NoDup(params) ==> forall j :: 0 <= j < i ==> params[j] != params[i];
        r := r[params[i] := args[i]];
      }
      i := i + 1;
    }
  }

  /** The key-list trimming at the start of `handle_positional_args`, in the source's order. */
  method TrimPathParams(controllerOptions: map<Key, Value>, inner: map<Key, Value>, argCount: nat,
                        result: map<Key, Value>, pathParams: seq<Key>) returns (params: seq<Key>)
    ensures forall k :: k in params <==>
      && k in pathParams
      && k !in inner
      && (argCount < PositionalCapacity(pathParams) ==> k !in controllerOptions && k !in result)
    ensures IsSubsequence(params, pathParams)
    ensures NoDup(pathParams) ==> NoDup(params)
    ensures params == RemainingKeys(controllerOptions.Keys, result.Keys, inner.Keys, argCount, pathParams)
  {
    SubsequenceReflexive(pathParams);
    params := pathParams;
    if argCount < PositionalCapacity(pathParams) {
      params := Without(params, controllerOptions.Keys);
      params := Without(params, result.Keys);
      SubsequenceTransitive(params, Without(pathParams, controllerOptions.Keys), pathParams);
    }
    var trimmed := params;
    params := Without(params, inner.Keys);
    SubsequenceTransitive(params, trimmed, pathParams);
  }

  /** `UrlHelper.optimize_helper?(route)`: no glob and no path requirements. */
  predicate OptimizeHelper(route: Route) {
    !route.glob && |route.pathRequirements| == 0
  }

  /** A `to_param` that `parameterize_args` reports as missing: nil or empty. */
  predicate MissingParam(p: Option<string>) {
    p.None? || p.value == ""
  }

  /** `args[i]`: nil past the end. */
  function ArgAt(args: seq<Value>, i: nat): Value {
    if i < |args| then args[i] else Nil
  }

  /** What `parameterize_args` computes: the params, and the keys it yielded, in order. */
  datatype Parameterized = Parameterized(params: map<Key, Option<string>>, missing: seq<Key>)

  /**
   `parameterize_args(args)`: the i-th required part is given the i-th
   arg's `to_param`; every part whose value is nil or empty is reported.
   */
  function ParameterizeArgs(parts: seq<Key>, args: seq<Value>): (r: Parameterized)
    decreases |parts|
    ensures forall k :: k in r.params <==> k in parts
    ensures forall k :: k in r.missing <==>
      exists i :: 0 <= i < |parts| && parts[i] == k && MissingParam(ToParam(ArgAt(args, i)))
    ensures |r.missing| <= |parts|
  {
    if |parts| == 0 then Parameterized(map[], [])
    else
      var n := |parts| - 1;
      var prev := ParameterizeArgs(parts[..n], args);
      var value := ToParam(ArgAt(args, n));
      assert forall i :: 0 <= i < n ==> parts[..n][i] == parts[i];
      Parameterized(prev.params[parts[n] := value],
                    if MissingParam(value) then prev.missing + [parts[n]] else prev.missing)
  }

  /** When no part repeats, each part holds the param of the arg at its position. */
  lemma {:induction false} ParameterizeArgsAt(parts: seq<Key>, args: seq<Value>, i: nat)
    requires NoDup(parts)
    requires i < |parts|
    ensures parts[i] in ParameterizeArgs(parts, args).params
    ensures ParameterizeArgs(parts, args).params[parts[i]] == ToParam(ArgAt(args, i))
    decreases |parts|
  {
    var n := |parts| - 1;
    var prev := ParameterizeArgs(parts[..n], args);
    assert ParameterizeArgs(parts, args).params == prev.params[parts[n] := ToParam(ArgAt(args, n))];
    if i < n {
      var front := parts[..n];
      forall a, b | 0 <= a < b < |front| ensures front[a] != front[b] {
        assert front[a] == parts[a] && front[b] == parts[b];
      }
      ParameterizeArgsAt(front, args, i);
      assert front[i] == parts[i];
      assert parts[i] != parts[n];
    }
  }

  /** `@route.requirements.merge(params)` */
  function Constraints(requirements: map<Key, string>, params: map<Key, Option<string>>): (r: map<Key, Option<string>>)
    ensures forall k :: k in r <==> k in requirements || k in params
    ensures forall k :: k in params ==> r[k] == params[k]
    ensures forall k :: k in requirements && k !in params ==> r[k] == Some(requirements[k])
  {
    (map k | k in requirements :: Some(requirements[k])) + params
  }

  /**
   `optimized_helper(args)` up to `@route.format`: the params to format,
   or the UrlGenerationError listing every missing key, sorted.
   */
  function OptimizedHelper(route: Route, args: seq<Value>): (r: Result<map<Key, Option<string>>>)
    ensures r.Ok? <==> forall i :: 0 <= i < |route.requiredParts| ==> !MissingParam(ToParam(ArgAt(args, i)))
    ensures r.Ok? ==> forall k :: k in r.value <==> k in route.requiredParts
    ensures r.Ok? ==> forall k :: k in r.value ==> !MissingParam(r.value[k])
    ensures r.Ok? && NoDup(route.requiredParts) ==>
      forall i :: 0 <= i < |route.requiredParts| ==> r.value[route.requiredParts[i]] == ToParam(ArgAt(args, i))
    ensures r.Err? ==> r.error.UrlGenerationError?
    ensures r.Err? ==> Sorted(r.error.missingKeys) && |r.error.missingKeys| > 0
    ensures r.Err? ==> forall k :: k in r.error.missingKeys <==>
      exists i :: 0 <= i < |route.requiredParts| && route.requiredParts[i] == k && MissingParam(ToParam(ArgAt(args, i)))
    ensures r.Err? ==> forall k :: k in r.error.constraints <==> k in route.requirements || k in route.requiredParts
  {
    var p := ParameterizeArgs(route.requiredParts, args);
    if |p.missing| == 0 then
      forall i | 0 <= i < |route.requiredParts|
        ensures !MissingParam(ToParam(ArgAt(args, i)))
      {
        assert route.requiredParts[i] !in p.missing;
      }
      assert NoDup(route.requiredParts) ==>
        forall i :: 0 <= i < |route.requiredParts| ==> p.params[route.requiredParts[i]] == ToParam(ArgAt(args, i)) by {
        if NoDup(route.requiredParts) {
          forall i | 0 <= i < |route.requiredParts|
            ensures p.params[route.requiredParts[i]] == ToParam(ArgAt(args, i))
          {
            ParameterizeArgsAt(route.requiredParts, args, i);
          }
        }
      }
      assert forall k :: k in p.params ==> !MissingParam(p.params[k]) by {
        forall k | k in p.params ensures !MissingParam(p.params[k]) {
          ParamsNotMissing(route.requiredParts, args, k);
        }
      }
      Ok(p.params)
    else
      var sorted := Sort(p.missing);
      assert forall k :: k in sorted <==> k in p.missing by {
        forall k ensures k in sorted <==> k in p.missing {
          assert k in sorted <==> k in multiset(sorted);
          assert k in p.missing <==> k in multiset(p.missing);
        }
      }
      assert |sorted| > 0 by {
        assert p.missing[0] in multiset(p.missing);
      }
      assert exists i :: 0 <= i < |route.requiredParts| && MissingParam(ToParam(ArgAt(args, i))) by {
        assert p.missing[0] in p.missing;
      }
      Err(UrlGenerationError(Constraints(route.requirements, p.params), sorted))
  }

  /** A required part that was not reported missing holds a non-empty param. */
  lemma {:induction false} ParamsNotMissing(parts: seq<Key>, args: seq<Value>, k: Key)
    requires k in ParameterizeArgs(parts, args).params
    requires |ParameterizeArgs(parts, args).missing| == 0
    ensures !MissingParam(ParameterizeArgs(parts, args).params[k])
    decreases |parts|
  {
    var n := |parts| - 1;
    var prev := ParameterizeArgs(parts[..n], args);
    if k != parts[n] {
      ParamsNotMissing(parts[..n], args, k);
    }
  }

  /** What a call to a named route helper leads to. */
  datatype HelperOutcome =
      /** The fast path: the merged options and the params given to `@route.format`. */
    | Optimized(options: map<Key, Value>, params: Result<map<Key, Option<string>>>)
      /** The general path: the hash handed to `RouteSet#url_for`. */
    | General(hash: map<Key, Value>)

  /**
   A call `helper.call(t, args, inner_options)`: `defaults` is the
   helper's own options (the route's defaults), `urlOptions` is
   `t.url_options`, `inner` the trailing options hash if one was given,
   and `optimizeGeneration` what `t` answers to `optimize_routes_generation?`.
   */
  function CallHelper(route: Route, defaults: map<Key, Value>, urlOptions: map<Key, Value>, args: seq<Value>,
                      inner: Option<map<Key, Value>>, optimizeGeneration: bool): (r: HelperOutcome)
    ensures r.Optimized? <==>
      OptimizeHelper(route) && |args| == |route.requiredParts| && inner.None? && optimizeGeneration
    ensures r.Optimized? ==> r.options == urlOptions + defaults && r.params == OptimizedHelper(route, args)
    ensures r.General? && inner.Some? ==> forall k :: k in inner.value ==> k in r.hash && r.hash[k] == inner.value[k]
    ensures r.General? ==>
      forall k :: k in urlOptions + defaults ==> k in r.hash
    ensures r.General? ==>
      r.hash == PositionalArgs(urlOptions, inner.GetOr(map[]), args, urlOptions + defaults, Uniq(route.segmentKeys))
  {
    if OptimizeHelper(route) && |args| == |route.requiredParts| && inner.None? && optimizeGeneration then
      Optimized(urlOptions + defaults, OptimizedHelper(route, args))
    else
      General(PositionalArgs(urlOptions, inner.GetOr(map[]), args, urlOptions + defaults, Uniq(route.segmentKeys)))
  }

  /**
   On the general path, with fewer args than non-format segment keys, an
   arg is never bound to a key the url options already supply: it goes
   to the next segment key nobody supplies.
   */
  lemma FewerArgsSkipSuppliedKeys(route: Route, defaults: map<Key, Value>, urlOptions: map<Key, Value>, arg: Value,
                                  supplied: Key, open: Key)
    requires Uniq(route.segmentKeys) == [supplied, open]
    requires supplied != Format && open != Format
    requires supplied in urlOptions && open !in urlOptions && open !in defaults
    ensures CallHelper(route, defaults, urlOptions, [arg], Some(map[]), true)
      == General((urlOptions + defaults)[open := arg])
  {
    var result := urlOptions + defaults;
    var inner: Option<map<Key, Value>> := Some(map[]);
    assert inner.GetOr(map[]) == map[];
    assert CallHelper(route, defaults, urlOptions, [arg], inner, true)
      == General(PositionalArgs(urlOptions, map[], [arg], result, Uniq(route.segmentKeys)));
    OnlyOpenKeyRemains(urlOptions.Keys, result.Keys, supplied, open);
    OneArgBindsOpenKey(urlOptions, result, arg, [supplied, open], open);
  }

  lemma OneArgBindsOpenKey(controllerOptions: map<Key, Value>, result: map<Key, Value>, arg: Value,
                           pathParams: seq<Key>, open: Key)
    requires RemainingKeys(controllerOptions.Keys, result.Keys, {}, 1, pathParams) == [open]
    ensures PositionalArgs(controllerOptions, map[], [arg], result, pathParams) == result[open := arg]
  {
    SingleArgBinding(result, open, arg);
  }

  lemma SingleArgBinding(result: map<Key, Value>, open: Key, arg: Value)
    ensures BindPositional(result, [open], [arg]) + map[] == result[open := arg]
  {
    assert [arg][..0] == [];
    assert BindPositional(result, [open], []) == result;
  }

  /** The one segment key left when the first is supplied and the second is not. */
  lemma OnlyOpenKeyRemains(controllerKeys: set<Key>, resultKeys: set<Key>, supplied: Key, open: Key)
    requires supplied != Format && open != Format
    requires supplied in controllerKeys && open !in controllerKeys && open !in resultKeys
    ensures RemainingKeys(controllerKeys, resultKeys, {}, 1, [supplied, open]) == [open]
  {
    var pathParams := [supplied, open];
    assert PositionalCapacity(pathParams) == 2;
    assert Without([], controllerKeys) == [];
    assert Without([open], controllerKeys) == [open];
    assert Without(pathParams, controllerKeys) == [open] by {
      assert pathParams[1..] == [open];
    }
    assert Without([open], resultKeys) == [open];
    assert Without([open], {}) == [open];
  }
}

=== FILE: values.dfy ===
/**
 Ruby values as the route set sees them: hash keys are Symbols, hash
 values are nil, Strings, Symbols or other objects, and failures are the
 exceptions the route set raises (or lets escape).
 */
module RubyValues {

  /** A Ruby Symbol used as a hash key, identified by its name. */
  type Key = string

  const Controller: Key := "controller"
  const Action: Key := "action"
  const Id: Key := "id"
  const Format: Key := "format"

  /** The conventional Some/None datatype, standing in for a value or nil. */
  datatype Option<+T> = None | Some(value: T) {
    function GetOr(default: T): T {
      match this
      case Some(v) => v
      case None => default
    }
  }

  /**
   A value stored in an options, recall or params hash.
   `Obj` is any other object; it carries what its `to_s` and `to_param`
   answer, since those methods belong to the object's own class.
   */
  datatype Value =
    | Nil
    | Str(s: string)
    | Sym(name: string)
    | Obj(id: nat, text: string, param: Option<string>)

  /** Ruby truthiness: only nil is falsy among the modelled values. */
  predicate Truthy(v: Value) {
    !v.Nil?
  }

  /** `to_s` */
  function ToS(v: Value): string {
    match v
    case Nil => ""
    case Str(s) => s
    case Sym(n) => n
    case Obj(_, t, _) => t
  }

  /** `to_param`: nil answers nil, Strings themselves, Symbols their name. */
  function ToParam(v: Value): Option<string> {
    match v
    case Nil => None
    case Str(s) => Some(s)
    case Sym(n) => Some(n)
    case Obj(_, _, p) => p
  }

  /** `hash[key]`: a missing key reads as nil. */
  function Lookup(m: map<Key, Value>, k: Key): (v: Value)
    ensures k !in m ==> v == Nil
    ensures k in m ==> v == m[k]
  {
    if k in m then m[k] else Nil
  }

  /** The exceptions raised by the modelled code. */
  datatype Error =
    | NoMethodError(selector: string)
    | TypeError(detail: string)
      /** ArgumentError "Invalid route name: '...'" */
    | InvalidRouteName(name: string)
      /** ArgumentError "Invalid route name, already in use: '...'" */
    | RouteNameInUse(name: string)
      /** ActionController::UrlGenerationError raised by an optimized helper:
          the route's constraints merged with the computed params, and the
          missing keys in sorted order. */
    | UrlGenerationError(constraints: map<Key, Option<string>>, missingKeys: seq<Key>)
      /** Whatever the path formatter raises. */
    | FormatterError(detail: string)

  /** A value or the exception that interrupted its computation. */
  datatype Result<+T> = Ok(value: T) | Err(error: Error) {
    predicate IsFailure() {
      Err?
    }

    function PropagateFailure<U>(): Result<U>
      requires Err?
    {
      Err(error)
    }

    function Extract(): T
      requires Ok?
    {
      value
    }
  }
}
